=== FILE: README.md ===
# Path-finding searches and BST views, modelled in Dafny

This project models the core of a small route-finding program. The program
has two halves.

- `search.py` reads a problem file into nodes, weighted edges, an origin and
  a list of destinations. It then runs one of six frontier searches:
  - `dfs`: a stack; neighbours pushed in descending id order.
  - `bfs`: a FIFO queue; neighbours appended in ascending id order.
  - `gbfs`: a heap keyed on the heuristic.
  - `astar`: a heap of `(f, g, node, path)` with a best-known-cost map.
  - `custom_uninformed` runs `dfs`; `custom_informed` runs `astar`.

  Each search returns `(goal, count, path)`.

  An origin with no entry in `edges` raises no error. It has no outgoing
  edges, so unless it passes the goal test, the search ends with no path
  after popping it. In the problem file, a line before any section header is ignored, and a
  line naming no known section is data for the current section.
- `bst_visualizer.py` holds the binary search tree the visualiser draws:
  - `insert`, the generic traversal and its three wrappers;
  - the visit numbering and the pre-order node listing;
  - the balanced tree built from a sorted node list;
  - the search tree built from `(node, parent)` pairs.

Modules follow the program's structure:

| file | module | contents |
|---|---|---|
| wrappers.dfy | `Wrappers` | `Option`, `Result` |
| ordering.dfy | `Ordering` | Python's string and list comparison (lexicographic), `sorted` as insertion sort, the uniqueness of a sorted arrangement |
| text.dfy | `Text` | `strip()` (Python's whitespace set), `strip(chars)`, `startswith`, `split` on one character, `join`, the substring test `a in b` |
| graph.dfy | `Graph` | the edge dictionary, paths from a start node, path cost, the total number of edges |
| frontier.dfy | `Frontier` | frontier tuples ordered as Python orders tuples; the heap pop as "an entry nothing is below"; pushing successors |
| search.dfy | `Search` | the loop invariant shared by `dfs`, `bfs` and `gbfs`, with its step lemmas |
| levels.dfy | `Levels` | the extra `bfs` invariant that makes its path a shortest one |
| uninformed.dfy | `Uninformed` | `dfs`, `bfs`, `custom_uninformed` |
| best_cost.dfy | `BestCost` | the `astar` invariant: `g` is the path cost, the best-known map only decreases |
| informed.dfy | `Informed` | `gbfs`, `astar`, `custom_informed`, and their versions with the intended goal test |
| loader.dfy | `Loader` | `load_problem`'s section state machine over a list of lines |
| bst.dfy | `Bst` | `BSTNode`/`BST` and `create_bst_from_all_nodes` |
| search_tree.dfy | `SearchTree` | `create_search_tree_from_visited_order` |

Four choices shape the model:

- **Pops.** A heap pop takes an entry that no other entry is strictly below under Python's full tuple order (priority, node id, path). That order is total, so such an entry is unique: it is the entry `heapq.heappop` returns.
- **Heuristic.** The Euclidean heuristic is a function parameter `h`.
- **Numbers.** `float(...)` is a parameter `num` from a token to an optional real. Coordinates and costs are reals.
- **Search tree.** `create_search_tree_from_visited_order` links shared node objects. It is modelled as a map from each value to its first left and first right child.

## Model

| member | source | states |
|---|---|---|
| Uninformed.Dfs | search.py:95-113 | A found goal is in the destination list, and the returned path runs from the origin along edges to it. `None` comes with `[]`, and then no path from the origin ends at a destination. The count is between 1 and 1 plus the number of edges. An origin that is a destination gives `(origin, 1, [origin])`. |
| Uninformed.Bfs | search.py:116-134 | Everything `Dfs` states. In addition, a found path has the fewest nodes of all paths from the origin to any destination. |
| Uninformed.CustomUninformed | search.py:185-186 | The same outcome contract as `dfs`. |
| Informed.GreedySearch | search.py:139-158 | The `gbfs` loop under any goal test: the popped goal passes the test and its path is a path from the origin. Exhaustion means no path reaches a node passing the test. The count is at most 1 plus the number of edges. |
| Informed.Gbfs | search.py:137-158 | An empty destination list fails with `NoGoals` (the `goal[0]` index error). Otherwise the loop runs with the test "the node occurs as a substring of the first destination", with the outcome guarantees of the loop. |
| Informed.GbfsIntended | search.py:137-158 | The same loop with destination-list membership: a found goal is a destination, and exhaustion means none is reachable. |
| Informed.AStarSearch | search.py:164-183 | The `astar` loop with at most `fuel` pops. It reports either fuel exhaustion, or a goal with a path from the origin, or a `None` that means no path reaches a goal. The count is at most the fuel. |
| Informed.AStar | search.py:162-183 | An empty destination list fails with `NoGoals`. Otherwise the result is the loop's, with the substring goal test on the first destination. |
| Informed.AStarIntended | search.py:162-183 | `astar` with destination-list membership as the goal test. |
| Informed.CustomInformed | search.py:188-189 | The same outcome contract as `astar`. |
| Informed.FirstGoalTestCounterexample | search.py:138-148 | The substring test accepts `"1"` for the destination list `["10"]` although `"1"` is no destination. It rejects `"B"` for `["A", "B"]` although `"B"` is one. |
| Frontier.MinIndex | search.py:145-145 | The chosen index holds an entry no other frontier entry is below. |
| Frontier.MinimalUnique | search.py:170-170 | Two such minimal entries are equal, so the pop is determined. |
| Frontier.Unvisited | search.py:110-110 | Keeps exactly the neighbour pairs whose node is not yet visited. |
| Frontier.UnvisitedCount | search.py:110-110 | Each unvisited pair is kept as many times as it occurs among the neighbours, and a visited one not at all. |
| Frontier.Successors | search.py:109-111 | Every pushed tuple is for a neighbour not yet visited. Its path is the expanded path extended by that neighbour, and its priority is the one the search assigns to that `(neighbor, cost)` pair. There are never more tuples than pairs. |
| Frontier.SuccessorFor | search.py:109-111 | Every unvisited neighbour gets a pushed tuple. |
| Frontier.SuccessorsOk | search.py:111-111 | Each pushed tuple's path starts at the origin, follows edges and ends at its node. |
| Frontier.DfsTopIsSmallest | search.py:109-111 | After a descending push, the stack top is an unvisited neighbour with no smaller id among the unvisited neighbours. |
| Search.AscendingEdges | search.py:130-130 | `sorted(edges.get(node, []))`: a permutation of the neighbour list in non-decreasing order. |
| Search.DescendingEdges | search.py:109-109 | `sorted(..., reverse=True)`: a permutation of the neighbour list in non-increasing order. |
| Search.SeedInv | search.py:96-98 | The initial stack, queue or heap `[(start, [start])]` satisfies the loop invariant. |
| Search.StepExpand | search.py:107-111 | Expanding a popped non-goal node keeps the invariant. Every frontier path starts at the origin, follows edges and ends at its entry's node. It also shrinks the set of unexpanded nodes. |
| Search.StepSkip | search.py:100-107 | Dropping a popped node that was already expanded keeps the invariant. |
| Search.FoundResult | search.py:104-105 | A goal found at pop time is returned with a valid path and a count of at most 1 plus the number of edges. |
| Search.ExhaustedResult | search.py:113-113 | An empty frontier means no path from the origin reaches a goal, and the count is within bounds. |
| Search.ExhaustedMeansUnreachable | search.py:100-113 | A frontier that runs dry after covering every reachable node leaves no reachable goal. |
| Levels.BfsExpand | search.py:128-132 | Expanding the queue head keeps the queue in path-length layers. |
| Levels.BfsFoundShortest | search.py:121-126 | The path popped first at a goal is no longer than any path from the origin to a destination. |
| BestCost.Record | search.py:176-177 | `visited[node] = g` only when the node is new or `g` is strictly smaller. No best-known cost ever increases, and no other entry changes. |
| BestCost.PushedCostOk | search.py:178-181 | A pushed tuple's `g2` is the cost of its path, and its `f2` is `g2` plus the heuristic. |
| BestCost.AStarStepExpand | search.py:176-181 | Expanding under the improvement condition keeps three facts. Every tuple's `g` is its path's cost. Every best-known cost is the cost of some path to that node. Every unexpanded successor of an expanded node stays in the frontier. |
| BestCost.AStarStepSkip | search.py:176-176 | Dropping a tuple that does not improve the best-known cost keeps the `astar` invariant. |
| Loader.HeaderOf | search.py:20-31 | A line starting with `Nodes:`, `Edges:`, `Origin:` or `Destinations:` switches to that section, and to no other. Every other line, including every line without `:`, switches nothing. |
| Loader.ParseNode | search.py:35-37 | A line without exactly two `:`-pieces, or whose bracket-stripped coordinates do not split into exactly two `,`-pieces, fails as malformed. Otherwise an unparseable `x` fails with `BadNumber(x)`, and an unparseable `y` after a good `x` fails with `BadNumber(y)`, as `float` raises `ValueError`. When the shape is right and both numbers parse, the result is the stripped id with the two numbers. |
| Loader.ParseEdge | search.py:40-43 | A line without exactly two `:`-pieces, or whose bracket-stripped left side does not split into exactly two `,`-pieces, fails as malformed. Otherwise an unparseable stripped cost fails with `BadNumber` of that token, as `float` raises `ValueError`. When the shape is right and the cost parses, the result is the stripped source with the stripped destination and the cost. |
| Loader.ParseDestinations | search.py:49-49 | One stripped id per `;`-separated piece. |
| Loader.AddEdge | search.py:43-43 | `setdefault(a, []).append(...)`: appends to `a`'s list and leaves every other list alone. |
| Loader.ProcessLine | search.py:17-49 | Blank lines change nothing. Header lines switch section and change nothing else. Data lines keep the section, and lines before any header are ignored. Only node and edge lines can fail, and a node or edge line that does not parse fails the line with the parser's error. |
| Loader.LoadAppend | search.py:16-49 | Loading `a + b` is loading `a` and then continuing with `b`, stopping at the first error. |
| Loader.BlankLineIgnored | search.py:17-19 | Inserting a blank line anywhere does not change the result. |
| Loader.NotHeader | search.py:20-31 | A data line whose id is not a section name never switches section. |
| Loader.ParseNodeLine | search.py:35-37 | The line `id: (x,y)` parses back to `id` and the two numbers. |
| Loader.NodeLineRoundTrip | search.py:34-37 | In the nodes section, the line `id: (x,y)` records exactly `nodes[id] = (x, y)`. |
| Loader.ParseEdgeLine | search.py:40-43 | The line `(a,b): c` parses back to `a`, `b` and the cost. |
| Loader.EdgeLineRoundTrip | search.py:39-43 | In the edges section, the line `(a,b): c` appends exactly `(b, c)` to `a`'s list. |
| Loader.OriginLineRoundTrip | search.py:45-46 | In the origin section, a stripped id line sets exactly the origin. |
| Loader.ParseJoinedDestinations | search.py:49-49 | Splitting `;`-joined stripped ids gives the ids back. |
| Loader.DestinationsLineRoundTrip | search.py:48-49 | In the destinations section, the `;`-joined ids replace the destination list with exactly those ids. |
| Loader.ProcessLineWellFormed | search.py:34-49 | Every id a line stores is stripped, and every edge list is non-empty. |
| Loader.LoadProblemWellFormed | search.py:8-51 | A successful load has stripped ids everywhere and no empty edge list. |
| Text.StripBy | search.py:17-17 | `strip`: the result is a contiguous piece of the input. Everything before and after it is stripped characters, and it neither starts nor ends with one. |
| Text.StripFramed | search.py:36-36 | Stripping droppable characters around a piece that does not start or end with one gives the piece back. |
| Text.StripIdempotent | search.py:45-46 | Stripping an already stripped line changes nothing. |
| Text.Split | search.py:49-49 | `split(sep)`: at least one piece, no piece contains the separator, and joining the pieces gives the input back. |
| Text.SplitJoin | search.py:49-49 | Splitting a join of separator-free pieces gives the pieces back. |
| Text.IsSubstring | search.py:148-148 | `a in b` on strings holds exactly when `a` occurs in `b` at some position. |
| Ordering.Sort | bst_visualizer.py:163-163 | `sorted`: a non-decreasing permutation of the input. |
| Ordering.SortedUnique | bst_visualizer.py:163-163 | A multiset has only one non-decreasing arrangement under a strict total order, so `sorted` is determined by the values. |
| Ordering.SortDescending | search.py:109-109 | `sorted(reverse=True)`: a non-increasing permutation of the input. |
| Ordering.StrLessStrictTotal | bst_visualizer.py:29-29 | Python's `<` on strings is a strict total order. |
| Ordering.PathLessStrictTotal | search.py:170-170 | Python's `<` on lists of ids, used when heap tuples tie on everything before the path, is a strict total order. |
| Bst.Insert | bst_visualizer.py:20-38 | `insert` adds one node holding the value: the values grow by exactly that value, and the size by one. |
| Bst.InsertKeepsBst | bst_visualizer.py:29-38 | A tree whose left subtrees hold only smaller values and right subtrees only values that are not smaller stays that way after `insert`. |
| Bst.InsertAll | bst_visualizer.py:20-25 | Inserting a list adds exactly its values and keeps the ordering. |
| Bst.Traverse | bst_visualizer.py:40-51 | Each traversal lists one value per node. |
| Bst.TraverseValues | bst_visualizer.py:40-51 | Each traversal lists exactly the tree's multiset of values. |
| Bst.InorderSorted | bst_visualizer.py:40-49 | The in-order traversal of an ordered tree is non-decreasing. |
| Bst.InorderTraversal | bst_visualizer.py:53-57 | The tree's values, non-decreasing when the tree is ordered. |
| Bst.PreorderTraversal | bst_visualizer.py:59-63 | A permutation of the in-order values that starts with the root. |
| Bst.PostorderTraversal | bst_visualizer.py:65-69 | A permutation of the in-order values that ends with the root. |
| Bst.InsertedInorderIsSorted | bst_visualizer.py:20-57 | A tree built by `insert` alone is ordered, and its in-order traversal is `sorted` of the inserted values. |
| Bst.GetAllNodes | bst_visualizer.py:85-97 | One entry per node, starting with the root. |
| Bst.GetAllNodesPreorder | bst_visualizer.py:91-97 | The `i`-th collected node holds the `i`-th pre-order value. |
| Bst.GetAllNodesDict | bst_visualizer.py:292-294 | The value list is exactly the pre-order traversal. |
| Bst.VisitNumbers | bst_visualizer.py:73-73 | The dictionary has exactly the listed values as keys. Each gets 1 plus the index of its last occurrence. |
| Bst.SetVisit | bst_visualizer.py:76-83 | Setting visit numbers changes no value and no shape. |
| Bst.SetVisitNodes | bst_visualizer.py:76-83 | The node at each pre-order position is the original node with the numbers applied. |
| Bst.SetVisitOrder | bst_visualizer.py:71-74 | `set_visit_order` changes no value and no shape. |
| Bst.SetVisitOrderNodes | bst_visualizer.py:71-83 | Each listed node gets 1 plus the index of its value's last occurrence. Every other node keeps its number. |
| Bst.BuildBalanced | bst_visualizer.py:165-172 | One node per list element; `None` exactly for an empty list; the root is `node_list[len // 2]`. |
| Bst.BuildBalancedInorder | bst_visualizer.py:165-172 | The in-order traversal of the built tree is the list itself. |
| Bst.BuildBalancedBalanced | bst_visualizer.py:165-172 | The subtree sizes of every node differ by at most one. |
| Bst.BuildBalancedOrdered | bst_visualizer.py:165-172 | A strictly increasing list gives an ordered tree. |
| Bst.DistinctPermutation | bst_visualizer.py:163-163 | Sorting distinct ids keeps them distinct. |
| Bst.CreateBstFromAllNodes | bst_visualizer.py:153-176 | `None` exactly for an empty list. Otherwise: the in-order traversal is `sorted(all_nodes)`; the root is `sorted(all_nodes)[len // 2]`; the tree is balanced; with distinct ids it is ordered. |
| SearchTree.RootOf | bst_visualizer.py:116-123 | The root is the node of the last pair whose parent is `None`, and there is none exactly when every pair has a parent. |
| SearchTree.FirstChild | bst_visualizer.py:126-141 | The first child recorded on the left (smaller) or right (not smaller) side of a parent, or none when the trace has no such pair. |
| SearchTree.Link | bst_visualizer.py:127-141 | Linking one pair creates the parent if needed. A child less than its parent becomes the left child when that side is empty, any other child becomes the right child when that side is empty, and the other side is untouched. An existing child is never overwritten, and other nodes are left alone. |
| SearchTree.LinkAllFirstChildren | bst_visualizer.py:126-141 | After the second pass, each node's links are exactly its first left and first right child in the trace. |
| SearchTree.TraceNumbers | bst_visualizer.py:146-148 | Every traced node gets 1 plus the index of its last pair, and only traced nodes get a number. |
| SearchTree.CreateSearchTree | bst_visualizer.py:100-150 | `None` exactly for an empty trace. Otherwise: the root is the last parentless node; the nodes are the traced nodes and the parents; each node's links are its first left and first right child; the visit numbers are those of the trace. |

## Left out

- Plotting, animation and layout are display code with no stated behaviour, so they are not modelled. This covers `draw_graph`, `print_results`, the `__main__` command line and the matplotlib helpers. It includes `calculate_tree_layout`, which is float geometry.
- File opening and `float(...)`: the lines arrive as a list. Number parsing is the parameter `num`, whose failure is the `ValueError` of a bad token.
- `heuristic`: its `math.sqrt` body is left out. Searches take the heuristic as a parameter `h`. No property depends on `h` being non-negative or admissible, so the model does not assume it.
- Reals stand in for Python floats. Rounding in `g + cost` is not modelled. Python's `float` also accepts `"nan"` and `"inf"`, which have no real counterpart; a NaN priority would break the total order the heap relies on, and the model does not cover it.
- Informed.AStarSearch: termination is not proved. `astar` may re-expand a node whenever a strictly cheaper `g` reaches it. The model bounds the number of pops with `fuel` and reports `FuelExhausted` when the bound is reached.
- Informed.AStar: optimality of the returned path is not stated. The goal test is the substring test, the heuristic is arbitrary, and the program makes no such promise.
- Informed.CustomInformed: it runs the as-written `astar`, substring goal test included, as the program does.
- Informed.Gbfs: `heuristic` looks up `nodes[neighbor]` and `nodes[goal]` (search.py:54-56), so a neighbour or first destination without coordinates makes the program raise `KeyError`. Here `h` is a total parameter, so that error is not modelled.
- Informed.AStar: a neighbour or first destination without coordinates makes `heuristic` raise `KeyError` in the program. Here `h` is total, so that error is not modelled.
- Informed.GreedySearch: `h` is total, so the `KeyError` of a node without coordinates is not modelled.
- Informed.AStarSearch: `h` is total, so the `KeyError` of a node without coordinates is not modelled.
- `BSTNode.is_visited` is set to `False` once in `__init__` (bst_visualizer.py:13) and never read, so the tree has no such field.
- Bst.BuildBalancedOrdered: the ordering holds only for distinct ids. With duplicates, `sorted` can place an equal value to the left of a node, where `insert` would not put it.
- SearchTree.CreateSearchTree: the result is described by its link map, not as a walk over the linked `BSTNode` objects. Traces whose links form a cycle make that walk (`_set_visit_recursive`, bst_visualizer.py:76-83) raise `RecursionError` in the program.
- SearchTree.TraceNumbers: it numbers every traced node. The program numbers only nodes reachable from the root, but unreachable nodes are never displayed, so the two agree on every visible node.

## Findings

| source | as written | input that shows it | evidently intended | confidence | as-written member | corrected member |
|---|---|---|---|---|---|---|
| search.py:138-148 | `gbfs` and `astar` replace the destination list by its first id, so `node in goal` becomes a substring test on that string. | Destinations `["10"]` with origin `"1"`: `"1" in "10"` holds, so the origin is returned as a goal. Destinations `["A", "B"]`: node `"B"` is never accepted as a goal. | The goal test `node in destinations` that `dfs` and `bfs` use. | not executed | Informed.FirstGoalTestCounterexample | Informed.GbfsIntended |

=== FILE: best_cost.dfy ===
/** The bookkeeping of `astar`: frontier tuples `(f, g, node, path)` whose
    `g` is the cost of `path`, and the best-known-cost dictionary `visited`,
    which is only ever lowered and lets a node be expanded again when a
    strictly cheaper `g` reaches it. */
module BestCost {
  import opened Graph
  import opened Frontier
  import opened Search

  /** The tuple pushed for the pair `(neighbor, cost)` when a node reached at
      cost `gc` is expanded: `g2 = gc + cost`, `f2 = g2 + heuristic(neighbor, goal)`. */
  function AStarKey(gc: real, target: NodeId, h: (NodeId, NodeId) -> real): Edge -> Priority {
    (e: Edge) => Cost(gc + e.cost + h(e.dst, target), gc + e.cost)
  }

  /** `node not in visited or g < visited[node]`: the condition for expanding. */
  predicate Improves(best: map<NodeId, real>, n: NodeId, gc: real) {
    n !in best || gc < best[n]
  }

  /** `visited[node] = g` under the expansion condition. */
  function Record(best: map<NodeId, real>, n: NodeId, gc: real): (r: map<NodeId, real>)
    ensures r.Keys == best.Keys + {n}
    ensures r[n] <= gc
    ensures Improves(best, n, gc) ==> r[n] == gc
    ensures forall v :: v in best ==> r[v] <= best[v]
    ensures forall v :: v in best && v != n ==> r[v] == best[v]
    ensures r == best <==> !Improves(best, n, gc)
  {
    if Improves(best, n, gc) then
      assert n in best ==> best[n := gc][n] != best[n];
      best[n := gc]
    else best
  }

  /** The seed `(0, 0, start, [start])`. */
  function CostSeed(start: NodeId): seq<Entry> {
    Seed(Cost(0.0, 0.0), start)
  }

  /** A well-formed `astar` tuple: a path from `start` to its node whose cost
      is its `g`, with `f = g + h` except for the seed's `f = 0`. */
  ghost predicate CostEntryOk(g: Graph, start: NodeId, target: NodeId, h: (NodeId, NodeId) -> real, e: Entry) {
    && e.priority.Cost?
    && EntryOk(g, start, e)
    && IsCostOf(g, e.path, e.priority.g)
    && (e.priority.f == e.priority.g + h(e.node, target) || e == CostSeed(start)[0])
  }

  /** Each best-known cost is the cost of a path from `start` to the node;
      `via` names one such path. */
  ghost predicate BestPaths(g: Graph, start: NodeId, best: map<NodeId, real>, via: map<NodeId, seq<NodeId>>) {
    && via.Keys == best.Keys
    && forall v :: v in best ==> IsPathFrom(g, start, via[v]) && Last(via[v]) == v && IsCostOf(g, via[v], best[v])
  }

  /** What holds at the top of every iteration of `astar`. */
  ghost predicate AStarInv(g: Graph, start: NodeId, isGoal: NodeId -> bool, target: NodeId, h: (NodeId, NodeId) -> real,
                           best: map<NodeId, real>, via: map<NodeId, seq<NodeId>>, frontier: seq<Entry>, count: nat) {
    && (forall i :: 0 <= i < |frontier| ==> CostEntryOk(g, start, target, h, frontier[i]))
    && BestPaths(g, start, best, via)
    && (forall v :: v in best ==> !isGoal(v))
    && Covered(g, best.Keys, frontier)
    && (start in best || (count == 0 && best == map[] && frontier == CostSeed(start)))
    && (start in best ==> count >= 1)
    && (isGoal(start) ==> count == 0)
  }

  lemma CostSeedInv(g: Graph, start: NodeId, isGoal: NodeId -> bool, target: NodeId, h: (NodeId, NodeId) -> real)
    ensures AStarInv(g, start, isGoal, target, h, map[], map[], CostSeed(start), 0)
  {
  }

  lemma UnvisitedNone(nbrs: seq<Edge>)
    ensures Unvisited(nbrs, {}) == nbrs
  {
    var u := Unvisited(nbrs, {});
    if |nbrs| > 0 {
      UnvisitedNone(nbrs[1..]);
      assert nbrs == [nbrs[0]] + nbrs[1..];
    }
  }

  /** Every tuple pushed when expanding a node reached at cost `g` by `path`
      carries a path extended by one edge whose cost is its `g`, and its `f`
      is that `g` plus the heuristic. */
  lemma {:induction false} AStarSuccessorsOk(g: Graph, start: NodeId, target: NodeId, h: (NodeId, NodeId) -> real, x: Entry, nbrs: seq<Edge>)
    requires CostEntryOk(g, start, target, h, x)
    requires forall e :: e in nbrs ==> e in Neighbors(g, x.node)
    ensures var pushed := Successors(x.path, nbrs, {}, AStarKey(x.priority.g, target, h));
            && |pushed| == |nbrs|
            && forall i :: 0 <= i < |pushed| ==>
                 && pushed[i].node == nbrs[i].dst
                 && pushed[i].priority == Cost(x.priority.g + nbrs[i].cost + h(nbrs[i].dst, target), x.priority.g + nbrs[i].cost)
                 && CostEntryOk(g, start, target, h, pushed[i])
  {
    var key := AStarKey(x.priority.g, target, h);
    var pushed := Successors(x.path, nbrs, {}, key);
    UnvisitedNone(nbrs);
    forall i | 0 <= i < |pushed|
      ensures CostEntryOk(g, start, target, h, pushed[i])
    {
      assert nbrs[i] in nbrs;
      PushedCostOk(g, start, target, h, x, nbrs[i]);
    }
  }

  /** The tuple pushed for one edge leaving a well-formed tuple's node is
      well-formed. */
  lemma PushedCostOk(g: Graph, start: NodeId, target: NodeId, h: (NodeId, NodeId) -> real, x: Entry, e: Edge)
    requires CostEntryOk(g, start, target, h, x)
    requires e in Neighbors(g, x.node)
    ensures CostEntryOk(g, start, target, h, Entry(AStarKey(x.priority.g, target, h)(e), e.dst, x.path + [e.dst]))
  {
    PathExtend(g, start, x.path, e);
    CostExtend(g, x.path, x.priority.g, e);
  }

  /** Removing one tuple and appending well-formed tuples keeps every tuple
      well-formed. */
  lemma CostAppendOk(g: Graph, start: NodeId, target: NodeId, h: (NodeId, NodeId) -> real, before: seq<Entry>, k: nat, pushed: seq<Entry>)
    requires k < |before|
    requires forall i :: 0 <= i < |before| ==> CostEntryOk(g, start, target, h, before[i])
    requires forall i :: 0 <= i < |pushed| ==> CostEntryOk(g, start, target, h, pushed[i])
    ensures forall i :: 0 <= i < |RemoveAt(before, k) + pushed| ==> CostEntryOk(g, start, target, h, (RemoveAt(before, k) + pushed)[i])
  {
    var rest := RemoveAt(before, k);
    var after := rest + pushed;
    forall i | 0 <= i < |after|
      ensures CostEntryOk(g, start, target, h, after[i])
    {
      if i >= |rest| {
        assert after[i] == pushed[i - |rest|];
      } else if i >= k {
        assert after[i] == before[i + 1];
      } else {
        assert after[i] == before[i];
      }
    }
  }

  /** Recording a well-formed tuple's `g` as its node's best-known cost keeps
      every best-known cost the cost of a path. */
  lemma BestPathsRecord(g: Graph, start: NodeId, target: NodeId, h: (NodeId, NodeId) -> real,
                        best: map<NodeId, real>, via: map<NodeId, seq<NodeId>>, x: Entry)
    requires BestPaths(g, start, best, via)
    requires CostEntryOk(g, start, target, h, x) && Improves(best, x.node, x.priority.g)
    ensures BestPaths(g, start, Record(best, x.node, x.priority.g), via[x.node := x.path])
  {
    var best' := Record(best, x.node, x.priority.g);
    var via' := via[x.node := x.path];
    assert best'.Keys == via'.Keys;
    forall v | v in best'
      ensures IsPathFrom(g, start, via'[v]) && Last(via'[v]) == v && IsCostOf(g, via'[v], best'[v])
    {
      if v == x.node {
        assert via'[v] == x.path && best'[v] == x.priority.g;
      } else {
        assert via'[v] == via[v] && best'[v] == best[v];
      }
    }
  }

  /** Popping the tuple at `k` under the expansion condition, lowering the
      node's best-known cost and appending all its successors keeps the
      invariant. */
  lemma AStarStepExpand(g: Graph, start: NodeId, isGoal: NodeId -> bool, target: NodeId, h: (NodeId, NodeId) -> real,
                        best: map<NodeId, real>, via: map<NodeId, seq<NodeId>>, before: seq<Entry>, count: nat,
                        k: nat, nbrs: seq<Edge>)
    requires AStarInv(g, start, isGoal, target, h, best, via, before, count)
    requires k < |before| && !isGoal(before[k].node)
    requires before[k].priority.Cost? && Improves(best, before[k].node, before[k].priority.g)
    requires multiset(nbrs) == multiset(Neighbors(g, before[k].node))
    ensures AStarInv(g, start, isGoal, target, h,
                     Record(best, before[k].node, before[k].priority.g), via[before[k].node := before[k].path],
                     RemoveAt(before, k) + Successors(before[k].path, nbrs, {}, AStarKey(before[k].priority.g, target, h)),
                     count + 1)
  {
    var x := before[k];
    var best' := Record(best, x.node, x.priority.g);
    var key := AStarKey(x.priority.g, target, h);
    var pushed := Successors(x.path, nbrs, {}, key);
    var rest := RemoveAt(before, k);
    var after := rest + pushed;
    SortedNeighbors(g, x.node, nbrs);
    AStarSuccessorsOk(g, start, target, h, x, nbrs);
    CostAppendOk(g, start, target, h, before, k, pushed);
    BestPathsRecord(g, start, target, h, best, via, x);
    PushedCover(g, x, nbrs, {}, key, rest);
    RemoveKeepsOthers(before, k, pushed);
    CoveredAfterPop(g, best.Keys, before, k, best'.Keys, after);
  }

  /** Popping the tuple at `k` when the expansion condition fails only drops it. */
  lemma AStarStepSkip(g: Graph, start: NodeId, isGoal: NodeId -> bool, target: NodeId, h: (NodeId, NodeId) -> real,
                      best: map<NodeId, real>, via: map<NodeId, seq<NodeId>>, before: seq<Entry>, count: nat, k: nat)
    requires AStarInv(g, start, isGoal, target, h, best, via, before, count)
    requires k < |before| && !isGoal(before[k].node)
    requires before[k].priority.Cost? && !Improves(best, before[k].node, before[k].priority.g)
    ensures AStarInv(g, start, isGoal, target, h, best, via, RemoveAt(before, k), count + 1)
  {
    var after := RemoveAt(before, k);
    assert after + [] == after;
    CostAppendOk(g, start, target, h, before, k, []);
    RemoveKeepsOthers(before, k, []);
    CoveredAfterPop(g, best.Keys, before, k, best.Keys, after);
  }
}

=== FILE: bst.dfy ===
/** The binary search tree of the visualiser: `BSTNode`, `BST.insert` (a
    smaller value goes left, an equal or larger one right), the generic
    traversal and its three wrappers, the visit numbering, the pre-order
    node listing, and the balanced tree built from a sorted node list.
    Values are node ids compared as Python compares strings. */
module Bst {
  import opened Wrappers
  import opened Ordering

  /** A `BSTNode` with its value, its `visit_order` (`None` until one is set)
      and its two children; `Nil` is Python's `None`. */
  datatype Tree = Nil | Node(value: string, visitOrder: Option<nat>, left: Tree, right: Tree)

  /** The values stored in a tree, counted with multiplicity. */
  function Values(t: Tree): multiset<string> {
    match t
    case Nil => multiset{}
    case Node(v, _, l, r) => Values(l) + multiset{v} + Values(r)
  }

  /** The number of nodes. */
  function Size(t: Tree): nat {
    match t
    case Nil => 0
    case Node(_, _, l, r) => Size(l) + 1 + Size(r)
  }

  /** Every value in `t` is below `v`. */
  predicate AllBelow(t: Tree, v: string) {
    match t
    case Nil => true
    case Node(x, _, l, r) => StrLess(x, v) && AllBelow(l, v) && AllBelow(r, v)
  }

  /** No value in `t` is below `v`. */
  predicate NoneBelow(t: Tree, v: string) {
    match t
    case Nil => true
    case Node(x, _, l, r) => !StrLess(x, v) && NoneBelow(l, v) && NoneBelow(r, v)
  }

  /** The ordering `insert` maintains: every value in a left subtree is below
      its node's value, and none in a right subtree is. */
  predicate IsBst(t: Tree) {
    match t
    case Nil => true
    case Node(v, _, l, r) => AllBelow(l, v) && NoneBelow(r, v) && IsBst(l) && IsBst(r)
  }

  /** `AllBelow` speaks about the multiset of values. */
  lemma {:induction false} AllBelowValues(t: Tree, v: string)
    ensures AllBelow(t, v) <==> forall x :: x in Values(t) ==> StrLess(x, v)
  {
    match t
    case Nil =>
    case Node(w, _, l, r) =>
      AllBelowValues(l, v);
      AllBelowValues(r, v);
      assert w in Values(t);
      assert forall x :: x in Values(t) <==> x in Values(l) || x == w || x in Values(r);
  }

  /** `NoneBelow` speaks about the multiset of values. */
  lemma {:induction false} NoneBelowValues(t: Tree, v: string)
    ensures NoneBelow(t, v) <==> forall x :: x in Values(t) ==> !StrLess(x, v)
  {
    match t
    case Nil =>
    case Node(w, _, l, r) =>
      NoneBelowValues(l, v);
      NoneBelowValues(r, v);
      assert w in Values(t);
      assert forall x :: x in Values(t) <==> x in Values(l) || x == w || x in Values(r);
  }

  /** `BST.insert` and `_insert_recursive`: descend left while the value is
      smaller than the node's, right otherwise, and hang a new node at the
      first empty place. */
  function Insert(t: Tree, v: string): (r: Tree)
    ensures r.Node?
    ensures Values(r) == Values(t) + multiset{v}
    ensures Size(r) == Size(t) + 1
  {
    match t
    case Nil => Node(v, None, Nil, Nil)
    case Node(w, o, l, rt) =>
      if StrLess(v, w) then Node(w, o, Insert(l, v), rt)
      else Node(w, o, l, Insert(rt, v))
  }

  /** Inserting a value below `w` into a tree below `w` stays below `w`. */
  lemma {:induction false} InsertAllBelow(t: Tree, v: string, w: string)
    requires AllBelow(t, w) && StrLess(v, w)
    ensures AllBelow(Insert(t, v), w)
  {
    match t
    case Nil =>
    case Node(x, o, l, rt) =>
      if StrLess(v, x) {
        InsertAllBelow(l, v, w);
      } else {
        InsertAllBelow(rt, v, w);
      }
  }

  /** Inserting a value not below `w` into a tree with none below `w` keeps
      none below `w`. */
  lemma {:induction false} InsertNoneBelow(t: Tree, v: string, w: string)
    requires NoneBelow(t, w) && !StrLess(v, w)
    ensures NoneBelow(Insert(t, v), w)
  {
    match t
    case Nil =>
    case Node(x, o, l, rt) =>
      if StrLess(v, x) {
        InsertNoneBelow(l, v, w);
      } else {
        InsertNoneBelow(rt, v, w);
      }
  }

  /** `insert` keeps the tree ordered. */
  lemma {:induction false} InsertKeepsBst(t: Tree, v: string)
    requires IsBst(t)
    ensures IsBst(Insert(t, v))
  {
    match t
    case Nil =>
    case Node(w, o, l, rt) =>
      if StrLess(v, w) {
        InsertKeepsBst(l, v);
        InsertAllBelow(l, v, w);
      } else {
        InsertKeepsBst(rt, v);
        InsertNoneBelow(rt, v, w);
      }
  }

  /** The `order` argument of `_traverse`. */
  datatype Order = InOrder | PreOrder | PostOrder

  /** `_traverse`: the node's value is emitted before both subtrees
      (pre-order), between them (in-order) or after both (post-order). */
  function Traverse(t: Tree, order: Order): (r: seq<string>)
    ensures |r| == Size(t)
  {
    match t
    case Nil => []
    case Node(v, _, l, rt) =>
      match order
      case PreOrder => [v] + Traverse(l, order) + Traverse(rt, order)
      case InOrder => Traverse(l, order) + [v] + Traverse(rt, order)
      case PostOrder => Traverse(l, order) + Traverse(rt, order) + [v]
  }

  /** Every traversal lists each value of the tree exactly as often as the
      tree holds it. */
  lemma {:induction false} TraverseValues(t: Tree, order: Order)
    ensures multiset(Traverse(t, order)) == Values(t)
  {
    match t
    case Nil =>
    case Node(v, _, l, rt) =>
      TraverseValues(l, order);
      TraverseValues(rt, order);
  }

  /** Every value listed by a traversal of a tree below `v` is below `v`. */
  lemma {:induction false} TraverseBelow(t: Tree, order: Order, v: string)
    requires AllBelow(t, v)
    ensures forall x :: x in Traverse(t, order) ==> StrLess(x, v)
  {
    match t
    case Nil =>
    case Node(w, _, l, rt) =>
      TraverseBelow(l, order, v);
      TraverseBelow(rt, order, v);
  }

  /** No value listed by a traversal of a tree with none below `v` is below `v`. */
  lemma {:induction false} TraverseNoneBelow(t: Tree, order: Order, v: string)
    requires NoneBelow(t, v)
    ensures forall x :: x in Traverse(t, order) ==> !StrLess(x, v)
  {
    match t
    case Nil =>
    case Node(w, _, l, rt) =>
      TraverseNoneBelow(l, order, v);
      TraverseNoneBelow(rt, order, v);
  }

  /** Two non-decreasing lists joined around a value that is above all of the
      first and below none of the second form a non-decreasing list. */
  lemma SortedJoin(a: seq<string>, v: string, b: seq<string>)
    requires SortedBy(a, StrLess) && SortedBy(b, StrLess)
    requires forall x :: x in a ==> StrLess(x, v)
    requires forall x :: x in b ==> !StrLess(x, v)
    ensures SortedBy(a + [v] + b, StrLess)
  {
    var s := a + [v] + b;
    forall i, j | 0 <= i < j < |s|
      ensures !StrLess(s[j], s[i])
    {
      if i < |a| {
        assert s[i] == a[i] && a[i] in a;
        if j > |a| {
          assert s[j] == b[j - |a| - 1] && b[j - |a| - 1] in b;
          StrLessTransitive(s[j], s[i], v);
        } else if j == |a| {
          StrLessAsymmetric(s[i], v);
        } else {
          assert s[j] == a[j];
        }
      } else if i > |a| {
        assert s[i] == b[i - |a| - 1] && s[j] == b[j - |a| - 1];
      } else {
        assert s[j] == b[j - |a| - 1] && b[j - |a| - 1] in b;
      }
    }
  }

  /** The in-order traversal of an ordered tree never decreases. */
  lemma {:induction false} InorderSorted(t: Tree)
    requires IsBst(t)
    ensures SortedBy(Traverse(t, InOrder), StrLess)
  {
    match t
    case Nil =>
    case Node(v, _, l, rt) =>
      InorderSorted(l);
      InorderSorted(rt);
      TraverseBelow(l, InOrder, v);
      TraverseNoneBelow(rt, InOrder, v);
      SortedJoin(Traverse(l, InOrder), v, Traverse(rt, InOrder));
  }

  /** `inorder_traversal`: the tree's values, in order when the tree is
      ordered. */
  function InorderTraversal(t: Tree): (r: seq<string>)
    ensures multiset(r) == Values(t)
    ensures IsBst(t) ==> SortedBy(r, StrLess)
  {
    TraverseValues(t, InOrder);
    if IsBst(t) then
      InorderSorted(t);
      Traverse(t, InOrder)
    else Traverse(t, InOrder)
  }

  /** `preorder_traversal`: a rearrangement of the in-order values that
      starts with the root. */
  function PreorderTraversal(t: Tree): (r: seq<string>)
    ensures multiset(r) == multiset(InorderTraversal(t))
    ensures t.Node? ==> |r| > 0 && r[0] == t.value
  {
    TraverseValues(t, PreOrder);
    Traverse(t, PreOrder)
  }

  /** `postorder_traversal`: a rearrangement of the in-order values that
      ends with the root. */
  function PostorderTraversal(t: Tree): (r: seq<string>)
    ensures multiset(r) == multiset(InorderTraversal(t))
    ensures t.Node? ==> |r| > 0 && r[|r| - 1] == t.value
  {
    TraverseValues(t, PostOrder);
    Traverse(t, PostOrder)
  }

  /** Values inserted one by one, in list order, into `t`. */
  function InsertAll(t: Tree, vs: seq<string>): (r: Tree)
    ensures Values(r) == Values(t) + multiset(vs)
    ensures IsBst(t) ==> IsBst(r)
    decreases |vs|
  {
    if |vs| == 0 then t
    else
      assert vs == [vs[0]] + vs[1..];
      if IsBst(t) then
        InsertKeepsBst(t, vs[0]);
        InsertAll(Insert(t, vs[0]), vs[1..])
      else InsertAll(Insert(t, vs[0]), vs[1..])
  }

  /** A tree built only by `insert` lists its values in sorted order:
      in-order traversal is `sorted` of the inserted values. */
  lemma InsertedInorderIsSorted(vs: seq<string>)
    ensures IsBst(InsertAll(Nil, vs))
    ensures InorderTraversal(InsertAll(Nil, vs)) == SortStrings(vs)
  {
    StrLessStrictTotal();
    var s := InorderTraversal(InsertAll(Nil, vs));
    SortedUnique(s, SortStrings(vs), StrLess);
  }

  /** Python's `sorted` on a list of node ids. */
  function SortStrings(s: seq<string>): (r: seq<string>)
    ensures |r| == |s|
    ensures SortedBy(r, StrLess)
    ensures multiset(r) == multiset(s)
  {
    StrLessStrictTotal();
    var r := Sort(s, StrLess);
    assert |r| == |s| by {
      assert |multiset(r)| == |multiset(s)|;
    }
    r
  }

  /** `get_all_nodes` and `_collect_nodes`: every node of the tree, each
      listed before its left subtree and that before its right subtree. */
  function GetAllNodes(t: Tree): (r: seq<Tree>)
    ensures |r| == Size(t)
    ensures t.Node? ==> r[0] == t
  {
    match t
    case Nil => []
    case Node(_, _, l, rt) => [t] + GetAllNodes(l) + GetAllNodes(rt)
  }

  /** Position `i` of `[x] + a + b`. */
  lemma IndexOfThree<T>(x: T, a: seq<T>, b: seq<T>, i: nat)
    requires i < 1 + |a| + |b|
    ensures ([x] + a + b)[i] == if i == 0 then x else if i <= |a| then a[i - 1] else b[i - 1 - |a|]
  {
  }

  /** The `i`-th listed node holds the `i`-th value of the pre-order
      traversal. */
  lemma {:induction false} GetAllNodesPreorder(t: Tree)
    ensures forall i :: 0 <= i < |GetAllNodes(t)| ==>
              GetAllNodes(t)[i].Node? && GetAllNodes(t)[i].value == Traverse(t, PreOrder)[i]
  {
    match t
    case Nil =>
    case Node(v, _, l, rt) =>
      GetAllNodesPreorder(l);
      GetAllNodesPreorder(rt);
      var a, b := GetAllNodes(l), GetAllNodes(rt);
      var pl, pr := Traverse(l, PreOrder), Traverse(rt, PreOrder);
      assert forall k :: 0 <= k < |a| ==> a[k].Node? && a[k].value == pl[k];
      assert forall k :: 0 <= k < |b| ==> b[k].Node? && b[k].value == pr[k];
      forall i | 0 <= i < 1 + |a| + |b|
        ensures ([t] + a + b)[i].Node? && ([t] + a + b)[i].value == ([v] + pl + pr)[i]
      {
        IndexOfThree(t, a, b, i);
        IndexOfThree(v, pl, pr, i);
        if 1 <= i <= |a| {
          assert a[i - 1].Node? && a[i - 1].value == pl[i - 1];
        } else if i > |a| {
          assert b[i - 1 - |a|].Node? && b[i - 1 - |a|].value == pr[i - 1 - |a|];
        }
      }
  }

  /** `get_all_nodes_dict`: the values of `get_all_nodes`, which is the
      pre-order traversal. */
  function GetAllNodesDict(t: Tree): (r: seq<string>)
    ensures r == PreorderTraversal(t)
  {
    var nodes := GetAllNodes(t);
    GetAllNodesPreorder(t);
    seq(|nodes|, i requires 0 <= i < |nodes| => nodes[i].value)
  }

  /** `{node: order + 1 for order, node in enumerate(visited_list)}`: a later
      occurrence overwrites an earlier one. */
  function VisitNumbers(visited: seq<string>): (r: map<string, nat>)
    ensures forall v :: v in r <==> v in visited
    ensures forall v :: v in r ==> 1 <= r[v] <= |visited| && visited[r[v] - 1] == v
    ensures forall v, j :: v in r && r[v] <= j < |visited| ==> visited[j] != v
    decreases |visited|
  {
    if |visited| == 0 then map[]
    else
      var front := visited[..|visited| - 1];
      var v := visited[|visited| - 1];
      assert visited == front + [v];
      VisitNumbers(front)[v := |visited|]
  }

  /** The tree with every visit number cleared: its shape and values. */
  function Erase(t: Tree): Tree {
    match t
    case Nil => Nil
    case Node(v, _, l, r) => Node(v, None, Erase(l), Erase(r))
  }

  /** `_set_visit_recursive`: every node whose value has a number receives
      it; the others keep theirs. */
  function SetVisit(t: Tree, numbers: map<string, nat>): (r: Tree)
    ensures Erase(r) == Erase(t)
  {
    match t
    case Nil => Nil
    case Node(v, o, l, rt) =>
      Node(v, if v in numbers then Some(numbers[v]) else o, SetVisit(l, numbers), SetVisit(rt, numbers))
  }

  /** The node at each pre-order position of the result is the node at that
      position of `t` with the numbers applied to it and below it. */
  lemma {:induction false} SetVisitNodes(t: Tree, numbers: map<string, nat>)
    ensures var a, b := GetAllNodes(t), GetAllNodes(SetVisit(t, numbers));
            && |b| == |a|
            && forall i :: 0 <= i < |a| ==> b[i] == SetVisit(a[i], numbers)
  {
    match t
    case Nil =>
    case Node(v, o, l, rt) =>
      SetVisitNodes(l, numbers);
      SetVisitNodes(rt, numbers);
      var al, ar := GetAllNodes(l), GetAllNodes(rt);
      var bl, br := GetAllNodes(SetVisit(l, numbers)), GetAllNodes(SetVisit(rt, numbers));
      var t' := SetVisit(t, numbers);
      forall i | 0 <= i < 1 + |al| + |ar|
        ensures ([t'] + bl + br)[i] == SetVisit(([t] + al + ar)[i], numbers)
      {
        IndexOfThree(t, al, ar, i);
        IndexOfThree(t', bl, br, i);
      }
  }

  /** `set_visit_order`: numbers every node whose value occurs in
      `visited`; the tree's shape and values do not change. */
  function SetVisitOrder(t: Tree, visited: seq<string>): (r: Tree)
    ensures Erase(r) == Erase(t)
  {
    SetVisit(t, VisitNumbers(visited))
  }

  /** After `set_visit_order`, the node at each pre-order position keeps its
      value; if the value occurs in `visited` its number is 1 plus the index
      of the value's last occurrence, and otherwise its number is unchanged. */
  lemma SetVisitOrderNodes(t: Tree, visited: seq<string>)
    ensures |GetAllNodes(SetVisitOrder(t, visited))| == |GetAllNodes(t)|
    ensures forall i :: 0 <= i < |GetAllNodes(t)| ==>
              VisitedAs(GetAllNodes(t)[i], GetAllNodes(SetVisitOrder(t, visited))[i], visited)
  {
    var numbers := VisitNumbers(visited);
    var a, b := GetAllNodes(t), GetAllNodes(SetVisitOrder(t, visited));
    SetVisitNodes(t, numbers);
    GetAllNodesPreorder(t);
    forall i | 0 <= i < |a|
      ensures VisitedAs(a[i], b[i], visited)
    {
      SetVisitOne(a[i], visited);
    }
  }

  lemma SetVisitOne(n: Tree, visited: seq<string>)
    requires n.Node?
    ensures VisitedAs(n, SetVisit(n, VisitNumbers(visited)), visited)
  {
  }

  /** `after` is the node `before` once the numbers of `visited` are set. */
  predicate VisitedAs(before: Tree, after: Tree, visited: seq<string>) {
    && before.Node? && after.Node?
    && after.value == before.value
    && (before.value in visited ==>
          && after.visitOrder.Some? && 1 <= after.visitOrder.value <= |visited|
          && visited[after.visitOrder.value - 1] == before.value
          && forall j :: after.visitOrder.value <= j < |visited| ==> visited[j] != before.value)
    && (before.value !in visited ==> after.visitOrder == before.visitOrder)
  }

  /** Every node's two subtrees differ in size by at most one. */
  predicate Balanced(t: Tree) {
    match t
    case Nil => true
    case Node(_, _, l, r) => -1 <= Size(l) - Size(r) <= 1 && Balanced(l) && Balanced(r)
  }

  /** Each element is strictly below every later one. */
  predicate StrictlySorted(s: seq<string>) {
    forall i, j :: 0 <= i < j < |s| ==> StrLess(s[i], s[j])
  }

  /** `build_balanced_bst`: the middle element `node_list[len // 2]` at the
      root, the elements before it on the left, the elements after it on the
      right. */
  function BuildBalanced(list: seq<string>): (r: Tree)
    ensures Size(r) == |list|
    ensures r.Nil? <==> |list| == 0
    ensures r.Node? ==> r.value == list[|list| / 2]
    decreases |list|
  {
    if |list| == 0 then Nil
    else
      var mid := |list| / 2;
      Node(list[mid], None, BuildBalanced(list[..mid]), BuildBalanced(list[mid + 1..]))
  }

  /** The in-order traversal of the balanced tree gives the list back. */
  lemma {:induction false} BuildBalancedInorder(list: seq<string>)
    ensures Traverse(BuildBalanced(list), InOrder) == list
    decreases |list|
  {
    if |list| > 0 {
      var mid := |list| / 2;
      var left, right := list[..mid], list[mid + 1..];
      BuildBalancedInorder(left);
      BuildBalancedInorder(right);
      SplitAt(list, mid);
      assert Traverse(BuildBalanced(list), InOrder)
          == Traverse(BuildBalanced(left), InOrder) + [list[mid]] + Traverse(BuildBalanced(right), InOrder);
    }
  }

  lemma SplitAt<T>(s: seq<T>, i: nat)
    requires i < |s|
    ensures s == s[..i] + [s[i]] + s[i + 1..]
  {
  }

  /** The built tree is balanced. */
  lemma {:induction false} BuildBalancedBalanced(list: seq<string>)
    ensures Balanced(BuildBalanced(list))
    decreases |list|
  {
    if |list| > 0 {
      var mid := |list| / 2;
      BuildBalancedBalanced(list[..mid]);
      BuildBalancedBalanced(list[mid + 1..]);
    }
  }

  /** A strictly increasing list gives an ordered tree. */
  lemma {:induction false} BuildBalancedOrdered(list: seq<string>)
    requires StrictlySorted(list)
    ensures IsBst(BuildBalanced(list))
    decreases |list|
  {
    if |list| > 0 {
      var mid := |list| / 2;
      var left, right := list[..mid], list[mid + 1..];
      assert StrictlySorted(left) && StrictlySorted(right);
      BuildBalancedOrdered(left);
      BuildBalancedOrdered(right);
      BuildBalancedInorder(left);
      BuildBalancedInorder(right);
      TraverseValues(BuildBalanced(left), InOrder);
      TraverseValues(BuildBalanced(right), InOrder);
      BalancedIsBst(list, BuildBalanced(list));
    }
  }

  lemma BalancedIsBst(list: seq<string>, t: Tree)
    requires StrictlySorted(list) && |list| > 0
    requires t.Node? && t.value == list[|list| / 2]
    requires multiset(list[..|list| / 2]) == Values(t.left) && IsBst(t.left)
    requires multiset(list[|list| / 2 + 1..]) == Values(t.right) && IsBst(t.right)
    ensures IsBst(t)
  {
    AllBefore(list, |list| / 2);
    AllAfter(list, |list| / 2);
    AllBelowValues(t.left, t.value);
    NoneBelowValues(t.right, t.value);
  }

  /** Every element before position `mid` of a strictly increasing list is
      below the one at `mid`. */
  lemma AllBefore(list: seq<string>, mid: nat)
    requires StrictlySorted(list) && mid < |list|
    ensures forall x :: x in multiset(list[..mid]) ==> StrLess(x, list[mid])
  {
    forall x | x in multiset(list[..mid])
      ensures StrLess(x, list[mid])
    {
      var k :| 0 <= k < mid && list[..mid][k] == x;
      assert list[k] == x;
    }
  }

  /** No element after position `mid` of a strictly increasing list is below
      the one at `mid`. */
  lemma AllAfter(list: seq<string>, mid: nat)
    requires StrictlySorted(list) && mid < |list|
    ensures forall x :: x in multiset(list[mid + 1..]) ==> !StrLess(x, list[mid])
  {
    forall x | x in multiset(list[mid + 1..])
      ensures !StrLess(x, list[mid])
    {
      var k :| 0 <= k < |list| - mid - 1 && list[mid + 1..][k] == x;
      assert list[mid + 1 + k] == x;
      StrLessAsymmetric(x, list[mid]);
    }
  }

  /** No value occurs twice. */
  predicate Distinct(s: seq<string>) {
    forall i, j :: 0 <= i < j < |s| ==> s[i] != s[j]
  }

  /** A sorted arrangement of distinct values is strictly increasing. */
  lemma SortedDistinct(s: seq<string>)
    requires SortedBy(s, StrLess) && Distinct(s)
    ensures StrictlySorted(s)
  {
    forall i, j | 0 <= i < j < |s|
      ensures StrLess(s[i], s[j])
    {
      StrLessConnected(s[i], s[j]);
    }
  }

  /** Rearranging a list keeps its elements distinct. */
  lemma {:induction false} DistinctPermutation(a: seq<string>, b: seq<string>)
    requires multiset(a) == multiset(b) && Distinct(a)
    ensures Distinct(b)
  {
    forall i, j | 0 <= i < j < |b|
      ensures b[i] != b[j]
    {
      if b[i] == b[j] {
        TwiceCounted(b, i, j);
        OnceCounted(a, b[i]);
      }
    }
  }

  lemma TwiceCounted(s: seq<string>, i: nat, j: nat)
    requires i < j < |s| && s[i] == s[j]
    ensures multiset(s)[s[i]] >= 2
  {
    assert s == s[..j] + s[j..];
    assert s[i] in multiset(s[..j]);
    assert s[j..][0] == s[j];
    assert s[j] in multiset(s[j..]);
  }

  lemma {:induction false} OnceCounted(s: seq<string>, x: string)
    requires Distinct(s)
    ensures multiset(s)[x] <= 1
    decreases |s|
  {
    if |s| > 0 {
      assert s == [s[0]] + s[1..];
      OnceCounted(s[1..], x);
      if s[0] == x {
        assert x !in s[1..];
      }
    }
  }

  /** `create_bst_from_all_nodes`: `None` for an empty list; otherwise the
      balanced tree over `sorted(all_nodes)`, whose in-order traversal is that
      sorted list and whose root is its middle element. For distinct node
      ids the tree is ordered. */
  function CreateBstFromAllNodes(all: seq<string>): (r: Option<Tree>)
    ensures r.None? <==> |all| == 0
    ensures r.Some? ==> InorderTraversal(r.value) == SortStrings(all)
    ensures r.Some? ==> r.value.Node? && r.value.value == SortStrings(all)[|all| / 2]
    ensures r.Some? ==> Balanced(r.value)
    ensures r.Some? && Distinct(all) ==> IsBst(r.value)
  {
    if |all| == 0 then None
    else
      var sorted := SortStrings(all);
      BuildBalancedInorder(sorted);
      BuildBalancedBalanced(sorted);
      if Distinct(all) then
        DistinctPermutation(all, sorted);
        SortedDistinct(sorted);
        BuildBalancedOrdered(sorted);
        Some(BuildBalanced(sorted))
      else Some(BuildBalanced(sorted))
  }
}

=== FILE: frontier.dfy ===
/** Frontier entries of the four search loops and the operations on them: the
    tuples pushed when a node is expanded, and `heapq.heappop`, which removes
    the smallest tuple under Python's tuple comparison. */
module Frontier {
  import opened Ordering
  import opened Graph

  /** The priority part of a frontier tuple:
      `dfs`/`bfs` push `(node, path)`, `gbfs` pushes `(h, node, path)` and
      `astar` pushes `(f, g, node, path)`. */
  datatype Priority =
    | Unordered
    | Greedy(h: real)
    | Cost(f: real, g: real)

  datatype Entry = Entry(priority: Priority, node: NodeId, path: seq<NodeId>)

  /** The priority component of `dfs`/`bfs` tuples: there is none. */
  function NoKey(e: Edge): Priority {
    Unordered
  }

  function Rank(p: Priority): nat {
    match p
    case Unordered => 0
    case Greedy(_) => 1
    case Cost(_, _) => 2
  }

  /** Tuple comparison on the priority components. One frontier only ever holds
      one kind of priority; the rank merely makes the order total. */
  predicate PriorityLess(a: Priority, b: Priority) {
    if a.Greedy? && b.Greedy? then a.h < b.h
    else if a.Cost? && b.Cost? then a.f < b.f || (a.f == b.f && a.g < b.g)
    else Rank(a) < Rank(b)
  }

  /** Python's comparison of two frontier tuples: priority first, then the node
      id, then the path as a list of strings. */
  predicate EntryLess(a: Entry, b: Entry) {
    || PriorityLess(a.priority, b.priority)
    || (a.priority == b.priority && StrLess(a.node, b.node))
    || (a.priority == b.priority && a.node == b.node && PathLess(a.path, b.path))
  }

  lemma EntryLessStrictTotal()
    ensures StrictTotalOrder(EntryLess)
  {
    StrLessStrictTotal();
    PathLessStrictTotal();
    assert StrictTotalOrder(PriorityLess);
  }

  /** The index `heapq.heappop` takes: an entry no other entry is smaller than.
      The order is total, so every such index holds the same tuple. */
  method MinIndex(frontier: seq<Entry>) returns (k: nat)
    requires |frontier| > 0
    ensures k < |frontier|
    ensures forall j :: 0 <= j < |frontier| ==> !EntryLess(frontier[j], frontier[k])
  {
    EntryLessStrictTotal();
    k := 0;
    var i := 1;
    while i < |frontier|
      invariant 1 <= i <= |frontier| && k < i
      invariant forall j :: 0 <= j < i ==> !EntryLess(frontier[j], frontier[k])
    {
      if EntryLess(frontier[i], frontier[k]) {
        k := i;
      }
      i := i + 1;
    }
  }

  /** Two minimal entries are the same tuple. */
  lemma MinimalUnique(frontier: seq<Entry>, i: nat, j: nat)
    requires i < |frontier| && j < |frontier|
    requires forall k :: 0 <= k < |frontier| ==> !EntryLess(frontier[k], frontier[i])
    requires forall k :: 0 <= k < |frontier| ==> !EntryLess(frontier[k], frontier[j])
    ensures frontier[i] == frontier[j]
  {
    EntryLessStrictTotal();
    assert !EntryLess(frontier[i], frontier[j]) && !EntryLess(frontier[j], frontier[i]);
  }

  /** The frontier without position `k`. */
  function RemoveAt(frontier: seq<Entry>, k: nat): (r: seq<Entry>)
    requires k < |frontier|
    ensures |r| == |frontier| - 1
    ensures forall i :: 0 <= i < k ==> r[i] == frontier[i]
    ensures forall i :: k <= i < |r| ==> r[i] == frontier[i + 1]
  {
    frontier[..k] + frontier[k + 1..]
  }

  /** The `(neighbor, cost)` pairs of `nbrs` whose neighbor is not in
      `visited`, in their original order: the pairs an expansion pushes. */
  function Unvisited(nbrs: seq<Edge>, visited: set<NodeId>): (r: seq<Edge>)
    ensures |r| <= |nbrs|
    ensures forall e :: e in r <==> e in nbrs && e.dst !in visited
    decreases |nbrs|
  {
    if |nbrs| == 0 then []
    else
      var rest := Unvisited(nbrs[1..], visited);
      assert forall x :: x in nbrs <==> x == nbrs[0] || x in nbrs[1..];
      if nbrs[0].dst in visited then rest else [nbrs[0]] + rest
  }

  /** The filter drops no duplicate: each unvisited pair is kept as many
      times as it occurs in `nbrs`, and a visited one not at all. */
  lemma {:induction false} UnvisitedCount(nbrs: seq<Edge>, visited: set<NodeId>, e: Edge)
    ensures multiset(Unvisited(nbrs, visited))[e] == if e.dst in visited then 0 else multiset(nbrs)[e]
    decreases |nbrs|
  {
    if |nbrs| > 0 {
      UnvisitedCount(nbrs[1..], visited, e);
      assert nbrs == [nbrs[0]] + nbrs[1..];
    }
  }

  /** The tuples pushed when expanding a node reached by `path`: one per
      unvisited neighbor, carrying `path + [neighbor]` and the priority `key`
      assigns to the pair. */
  function Successors(path: seq<NodeId>, nbrs: seq<Edge>, visited: set<NodeId>, key: Edge -> Priority): (r: seq<Entry>)
    ensures |r| <= |nbrs|
    ensures forall i :: 0 <= i < |r| ==> r[i].node !in visited && r[i].path == path + [r[i].node]
    ensures forall i :: 0 <= i < |r| ==> exists e :: e in nbrs && e.dst == r[i].node && r[i].priority == key(e)
  {
    var u := Unvisited(nbrs, visited);
    seq(|u|, i requires 0 <= i < |u| => Entry(key(u[i]), u[i].dst, path + [u[i].dst]))
  }

  /** Every unvisited neighbor has a pushed tuple. */
  lemma SuccessorFor(path: seq<NodeId>, nbrs: seq<Edge>, visited: set<NodeId>, key: Edge -> Priority, e: Edge)
    requires e in nbrs && e.dst !in visited
    ensures exists i :: 0 <= i < |Successors(path, nbrs, visited, key)|
              && Successors(path, nbrs, visited, key)[i] == Entry(key(e), e.dst, path + [e.dst])
  {
    var u := Unvisited(nbrs, visited);
    assert e in u;
    var i :| 0 <= i < |u| && u[i] == e;
    assert Successors(path, nbrs, visited, key)[i] == Entry(key(e), e.dst, path + [e.dst]);
  }

  /** A frontier tuple whose path starts at `start`, follows edges and ends at
      the tuple's node. */
  ghost predicate EntryOk(g: Graph, start: NodeId, e: Entry) {
    IsPathFrom(g, start, e.path) && Last(e.path) == e.node
  }

  /** Expanding a well-formed entry pushes well-formed entries. */
  lemma SuccessorsOk(g: Graph, start: NodeId, x: Entry, nbrs: seq<Edge>, visited: set<NodeId>, key: Edge -> Priority)
    requires EntryOk(g, start, x)
    requires forall e :: e in nbrs ==> e in Neighbors(g, x.node)
    ensures forall i :: 0 <= i < |Successors(x.path, nbrs, visited, key)| ==>
              EntryOk(g, start, Successors(x.path, nbrs, visited, key)[i])
  {
    var u := Unvisited(nbrs, visited);
    forall i | 0 <= i < |u|
      ensures IsPathFrom(g, start, x.path + [u[i].dst])
    {
      assert u[i] in u;
      PathExtend(g, start, x.path, u[i]);
    }
  }

  /** With the adjacency list in descending order (`sorted(..., reverse=True)`),
      the unvisited pairs keep that order. */
  lemma {:induction false} UnvisitedDescending(nbrs: seq<Edge>, visited: set<NodeId>, less: (Edge, Edge) -> bool)
    requires NonIncreasing(nbrs, less)
    ensures NonIncreasing(Unvisited(nbrs, visited), less)
    decreases |nbrs|
  {
    if |nbrs| > 0 {
      var rest := Unvisited(nbrs[1..], visited);
      UnvisitedDescending(nbrs[1..], visited, less);
      forall j | 0 <= j < |rest|
        ensures !less(nbrs[0], rest[j])
      {
        assert rest[j] in rest;
        var k :| 0 <= k < |nbrs[1..]| && nbrs[1..][k] == rest[j];
        assert nbrs[k + 1] == rest[j];
      }
      if nbrs[0].dst !in visited {
        var u := [nbrs[0]] + rest;
        assert u == Unvisited(nbrs, visited);
        assert NonIncreasing(rest, less);
        forall i, j | 0 <= i < j < |u|
          ensures !less(u[i], u[j])
        {
          assert u[j] == rest[j - 1];
          if i > 0 {
            assert u[i] == rest[i - 1];
            assert !less(rest[i - 1], rest[j - 1]);
          } else {
            assert !less(nbrs[0], rest[j - 1]);
          }
        }
      }
    }
  }

  /** In a non-increasing list of pairs the last one has the smallest id. */
  lemma {:induction false} LastHasSmallestId(u: seq<Edge>)
    requires NonIncreasing(u, EdgeLess) && |u| > 0
    ensures forall e :: e in u ==> !StrLess(e.dst, Last(u).dst)
  {
    forall e | e in u
      ensures !StrLess(e.dst, Last(u).dst)
    {
      var i :| 0 <= i < |u| && u[i] == e;
      if i < |u| - 1 {
        assert !EdgeLess(u[i], u[|u| - 1]);
      } else {
        LexIrreflexive(e.dst, CharLess);
      }
    }
  }

  /** `dfs` pops the last tuple pushed; after an expansion that pushed
      something it is the unvisited neighbor with the smallest id. */
  lemma DfsTopIsSmallest(path: seq<NodeId>, nbrs: seq<Edge>, visited: set<NodeId>, key: Edge -> Priority)
    requires NonIncreasing(nbrs, EdgeLess)
    requires exists e :: e in nbrs && e.dst !in visited
    ensures var r := Successors(path, nbrs, visited, key);
            && |r| > 0
            && (exists e :: e in nbrs && e.dst !in visited && e.dst == Last(r).node)
            && (forall e :: e in nbrs && e.dst !in visited ==> !StrLess(e.dst, Last(r).node))
  {
    var u := Unvisited(nbrs, visited);
    var e0 :| e0 in nbrs && e0.dst !in visited;
    assert e0 in u;
    assert Last(u) in u;
    UnvisitedDescending(nbrs, visited, EdgeLess);
    LastHasSmallestId(u);
    assert Last(Successors(path, nbrs, visited, key)).node == Last(u).dst;
  }
}

=== FILE: graph.dfy ===
/** The graph the searches run on: the `edges` dictionary `load_problem`
    builds, from node id to the list of `(neighbor, cost)` pairs leaving it,
    together with the path notions the searches' results are judged by. */
module Graph {
  import opened Ordering

  type NodeId = string

  /** One `(neighbor, cost)` pair of an adjacency list. Costs are the file's
      floating-point numbers, modelled as reals. */
  datatype Edge = Edge(dst: NodeId, cost: real)

  /** Directed, weighted adjacency lists; parallel edges are allowed. */
  type Graph = map<NodeId, seq<Edge>>

  /** `edges.get(node, [])`: a node without an entry has no outgoing edges. */
  function Neighbors(g: Graph, n: NodeId): seq<Edge> {
    if n in g then g[n] else []
  }

  predicate IsEdge(g: Graph, a: NodeId, b: NodeId) {
    exists e :: e in Neighbors(g, a) && e.dst == b
  }

  function Last<T>(s: seq<T>): T
    requires |s| > 0
  {
    s[|s| - 1]
  }

  /** `p` starts at `start` and each consecutive pair of it is an edge. */
  ghost predicate IsPathFrom(g: Graph, start: NodeId, p: seq<NodeId>) {
    && |p| >= 1
    && p[0] == start
    && forall i :: 0 <= i < |p| - 1 ==> IsEdge(g, p[i], p[i + 1])
  }

  /** Appending the target of an edge leaving the last node extends a path. */
  lemma PathExtend(g: Graph, start: NodeId, p: seq<NodeId>, e: Edge)
    requires IsPathFrom(g, start, p)
    requires e in Neighbors(g, Last(p))
    ensures IsPathFrom(g, start, p + [e.dst])
  {
    var q := p + [e.dst];
    forall i | 0 <= i < |q| - 1
      ensures IsEdge(g, q[i], q[i + 1])
    {
      if i < |p| - 1 {
        assert q[i] == p[i] && q[i + 1] == p[i + 1];
      } else {
        assert q[i] == Last(p) && q[i + 1] == e.dst;
      }
    }
  }

  /** Dropping the last node of a path of two or more nodes leaves a path. */
  lemma PathPrefix(g: Graph, start: NodeId, p: seq<NodeId>)
    requires IsPathFrom(g, start, p) && |p| >= 2
    ensures IsPathFrom(g, start, p[..|p| - 1])
    ensures IsEdge(g, Last(p[..|p| - 1]), Last(p))
  {
    var q := p[..|p| - 1];
    forall i | 0 <= i < |q| - 1
      ensures IsEdge(g, q[i], q[i + 1])
    {
      assert q[i] == p[i] && q[i + 1] == p[i + 1];
    }
    assert IsEdge(g, p[|p| - 2], p[|p| - 1]);
  }

  /** Every edge leaving a member of `s` ends in `s`. */
  ghost predicate ClosedUnder(g: Graph, s: set<NodeId>) {
    forall v, e :: v in s && e in Neighbors(g, v) ==> e.dst in s
  }

  /** A set closed under the edges that contains `start` contains the end of
      every path from `start`. */
  lemma {:induction false} ClosedContainsPaths(g: Graph, s: set<NodeId>, start: NodeId, p: seq<NodeId>)
    requires ClosedUnder(g, s) && start in s
    requires IsPathFrom(g, start, p)
    ensures Last(p) in s
    decreases |p|
  {
    if |p| >= 2 {
      var q := p[..|p| - 1];
      PathPrefix(g, start, p);
      ClosedContainsPaths(g, s, start, q);
      var e :| e in Neighbors(g, Last(q)) && e.dst == Last(p);
    }
  }

  /** `c` is the sum of the costs of some choice of edges along `p` (with
      parallel edges a node path can have several costs). */
  ghost predicate IsCostOf(g: Graph, p: seq<NodeId>, c: real)
    decreases |p|
  {
    if |p| <= 1 then c == 0.0
    else exists e :: e in Neighbors(g, p[|p| - 2]) && e.dst == p[|p| - 1] && IsCostOf(g, p[..|p| - 1], c - e.cost)
  }

  /** Extending a path by an edge adds that edge's cost. */
  lemma CostExtend(g: Graph, p: seq<NodeId>, c: real, e: Edge)
    requires |p| >= 1 && IsCostOf(g, p, c)
    requires e in Neighbors(g, Last(p))
    ensures IsCostOf(g, p + [e.dst], c + e.cost)
  {
    var q := p + [e.dst];
    assert q[..|q| - 1] == p;
    assert q[|q| - 2] == Last(p);
    assert IsCostOf(g, q[..|q| - 1], (c + e.cost) - e.cost);
  }

  /** The order Python's `sorted` puts `(neighbor, cost)` tuples in. */
  predicate EdgeLess(a: Edge, b: Edge) {
    StrLess(a.dst, b.dst) || (a.dst == b.dst && a.cost < b.cost)
  }

  lemma EdgeLessStrictTotal()
    ensures StrictTotalOrder(EdgeLess)
  {
    StrLessStrictTotal();
  }

  /** Every node id mentioned as the target of an edge. */
  ghost function Targets(g: Graph): set<NodeId> {
    set k, e | k in g && e in g[k] :: e.dst
  }

  lemma NeighborInTargets(g: Graph, v: NodeId, e: Edge)
    requires e in Neighbors(g, v)
    ensures e.dst in Targets(g)
  {
  }

  /** The number of adjacency-list entries of the nodes in `s`. */
  ghost function DegreeSum(g: Graph, s: set<NodeId>): nat
    decreases s
  {
    if s == {} then 0
    else
      var v :| v in s;
      |Neighbors(g, v)| + DegreeSum(g, s - {v})
  }

  /** The number of `(neighbor, cost)` entries in the whole graph. */
  ghost function TotalEdges(g: Graph): nat {
    DegreeSum(g, g.Keys)
  }

  /** The sum does not depend on which member is taken out first. */
  lemma {:induction false} DegreeSumRemove(g: Graph, s: set<NodeId>, v: NodeId)
    requires v in s
    ensures DegreeSum(g, s) == |Neighbors(g, v)| + DegreeSum(g, s - {v})
    decreases s
  {
    var w :| w in s && DegreeSum(g, s) == |Neighbors(g, w)| + DegreeSum(g, s - {w});
    if w != v {
      DegreeSumRemove(g, s - {w}, v);
      DegreeSumRemove(g, s - {v}, w);
      assert s - {w} - {v} == s - {v} - {w};
    }
  }

  /** Nodes without an adjacency list contribute nothing, so any set's degree
      sum is at most the graph's total. */
  lemma {:induction false} DegreeSumBound(g: Graph, s: set<NodeId>, keys: set<NodeId>)
    requires keys <= g.Keys
    requires s * g.Keys <= keys
    ensures DegreeSum(g, s) <= DegreeSum(g, keys)
    decreases s
  {
    if s != {} {
      var v :| v in s;
      DegreeSumRemove(g, s, v);
      if v in g.Keys {
        DegreeSumRemove(g, keys, v);
        DegreeSumBound(g, s - {v}, keys - {v});
      } else {
        DegreeSumBound(g, s - {v}, keys);
      }
    }
  }

  lemma DegreeSumAtMostTotal(g: Graph, s: set<NodeId>)
    ensures DegreeSum(g, s) <= TotalEdges(g)
  {
    DegreeSumBound(g, s, g.Keys);
  }
}

=== FILE: informed.dfy ===
/** The informed searches of `search.py`: `gbfs` (a heap keyed on the
    heuristic, neighbors pushed in adjacency-list order), `astar` (a heap keyed
    on `(g + h, g, node, path)` with a best-known-cost map) and
    `custom_informed`, which is `astar`.

    Both `gbfs` and `astar` begin with `goal = goal[0]`: the heuristic aims at
    the first destination, an empty destination list raises `IndexError`, and
    the goal test `node in goal` becomes a substring test on that one id. The
    loops below take the goal test as a parameter; `Gbfs` and `AStar` pass the
    substring test, `GbfsIntended` and `AStarIntended` pass membership in the
    destination list. The heuristic `heuristic(a, b, nodes)` is the parameter
    `h(a, b)`. */
module Informed {
  import opened Wrappers
  import opened Text
  import opened Graph
  import opened Frontier
  import opened Search
  import opened BestCost

  /** The priority of the `gbfs` tuple pushed for a pair: the heuristic of
      the neighbor towards the target. */
  function GreedyKey(target: NodeId, h: (NodeId, NodeId) -> real): Edge -> Priority {
    (e: Edge) => Greedy(h(e.dst, target))
  }

  /** The `gbfs` loop with goal test `isGoal`: pop the smallest
      `(h, node, path)`; count it; stop at a goal; otherwise, on the node's
      first expansion, mark it visited and push its unvisited neighbors. */
  method GreedySearch(g: Graph, start: NodeId, isGoal: NodeId -> bool, target: NodeId, h: (NodeId, NodeId) -> real)
    returns (r: SearchResult)
    ensures 1 <= r.count <= 1 + TotalEdges(g)
    ensures r.goal.Some? ==> isGoal(r.goal.value) && IsPathFrom(g, start, r.path) && Last(r.path) == r.goal.value
    ensures r.goal.None? ==> r.path == [] && forall p :: IsPathFrom(g, start, p) ==> !isGoal(Last(p))
    ensures isGoal(start) ==> r == SearchResult(Some(start), 1, [start])
  {
    var frontier := Seed(Greedy(0.0), start);
    var visited: set<NodeId> := {};
    var count := 0;
    SeedInv(g, start, isGoal, Greedy(0.0));
    while |frontier| > 0
      invariant SearchInv(g, start, isGoal, visited, frontier, count)
      decreases |Universe(g, start) - visited|, |frontier|
    {
      var k := MinIndex(frontier);
      var x := frontier[k];
      if isGoal(x.node) {
        FoundResult(g, start, isGoal, visited, frontier, count, k);
        return SearchResult(Some(x.node), count + 1, x.path);
      }
      if x.node !in visited {
        var nbrs := Neighbors(g, x.node);
        var pushed := Successors(x.path, nbrs, visited + {x.node}, GreedyKey(target, h));
        StepExpand(g, start, isGoal, visited, frontier, count, k, nbrs, GreedyKey(target, h));
        visited, frontier := visited + {x.node}, RemoveAt(frontier, k) + pushed;
      } else {
        StepSkip(g, start, isGoal, visited, frontier, count, k);
        frontier := RemoveAt(frontier, k);
      }
      count := count + 1;
    }
    ExhaustedResult(g, start, isGoal, visited, count);
    return SearchResult(None, count, []);
  }

  /** The `astar` loop with goal test `isGoal`, allowed at most `fuel` pops:
      pop the smallest `(f, g, node, path)`; count it; stop at a goal;
      otherwise, when the node is new or reached more cheaply than before,
      record `g` and push every neighbor in ascending order. */
  method AStarSearch(g: Graph, start: NodeId, isGoal: NodeId -> bool, target: NodeId, h: (NodeId, NodeId) -> real, fuel: nat)
    returns (res: Result<SearchResult, SearchError>)
    ensures res.Failure? ==> res.error == FuelExhausted
    ensures res.Success? ==> 1 <= res.value.count <= fuel
    ensures res.Success? && res.value.goal.Some? ==>
              isGoal(res.value.goal.value) && IsPathFrom(g, start, res.value.path) && Last(res.value.path) == res.value.goal.value
    ensures res.Success? && res.value.goal.None? ==>
              res.value.path == [] && forall p :: IsPathFrom(g, start, p) ==> !isGoal(Last(p))
    ensures isGoal(start) && fuel >= 1 ==> res == Success(SearchResult(Some(start), 1, [start]))
  {
    var frontier := CostSeed(start);
    var best: map<NodeId, real> := map[];
    ghost var via: map<NodeId, seq<NodeId>> := map[];
    var count := 0;
    CostSeedInv(g, start, isGoal, target, h);
    while |frontier| > 0
      invariant AStarInv(g, start, isGoal, target, h, best, via, frontier, count)
      invariant count <= fuel
      decreases fuel - count
    {
      if count == fuel {
        return Failure(FuelExhausted);
      }
      var k := MinIndex(frontier);
      var x := frontier[k];
      if isGoal(x.node) {
        return Success(SearchResult(Some(x.node), count + 1, x.path));
      }
      var gx := x.priority.g;
      if Improves(best, x.node, gx) {
        var nbrs := AscendingEdges(g, x.node);
        var pushed := Successors(x.path, nbrs, {}, AStarKey(gx, target, h));
        AStarStepExpand(g, start, isGoal, target, h, best, via, frontier, count, k, nbrs);
        best, via, frontier := Record(best, x.node, gx), via[x.node := x.path], RemoveAt(frontier, k) + pushed;
      } else {
        AStarStepSkip(g, start, isGoal, target, h, best, via, frontier, count, k);
        frontier := RemoveAt(frontier, k);
      }
      count := count + 1;
    }
    ExhaustedMeansUnreachable(g, start, best.Keys, isGoal);
    return Success(SearchResult(None, count, []));
  }

  /** `node in goal` after `goal = goal[0]`: `node` occurs in the first
      destination id. */
  function FirstGoalTest(goals: seq<NodeId>): NodeId -> bool
    requires |goals| > 0
  {
    (n: NodeId) => IsSubstring(n, goals[0])
  }

  /** Membership in the destination list, the test `dfs` and `bfs` use. */
  function MemberTest(goals: seq<NodeId>): NodeId -> bool {
    (n: NodeId) => n in goals
  }

  /** `gbfs` as written. */
  method Gbfs(g: Graph, start: NodeId, goals: seq<NodeId>, h: (NodeId, NodeId) -> real)
    returns (res: Result<SearchResult, SearchError>)
    ensures res.Failure? <==> goals == []
    ensures res.Failure? ==> res.error == NoGoals
    ensures res.Success? ==> 1 <= res.value.count <= 1 + TotalEdges(g)
    ensures res.Success? && res.value.goal.Some? ==>
              IsSubstring(res.value.goal.value, goals[0]) && IsPathFrom(g, start, res.value.path) && Last(res.value.path) == res.value.goal.value
    ensures res.Success? && res.value.goal.None? ==>
              res.value.path == [] && forall p :: IsPathFrom(g, start, p) ==> !IsSubstring(Last(p), goals[0])
    ensures |goals| > 0 && IsSubstring(start, goals[0]) ==> res == Success(SearchResult(Some(start), 1, [start]))
  {
    if |goals| == 0 {
      return Failure(NoGoals);
    }
    var r := GreedySearch(g, start, FirstGoalTest(goals), goals[0], h);
    return Success(r);
  }

  /** `gbfs` with the goal test the other searches use. */
  method GbfsIntended(g: Graph, start: NodeId, goals: seq<NodeId>, h: (NodeId, NodeId) -> real)
    returns (res: Result<SearchResult, SearchError>)
    ensures res.Failure? <==> goals == []
    ensures res.Failure? ==> res.error == NoGoals
    ensures res.Success? ==> 1 <= res.value.count <= 1 + TotalEdges(g)
    ensures res.Success? && res.value.goal.Some? ==>
              res.value.goal.value in goals && IsPathFrom(g, start, res.value.path) && Last(res.value.path) == res.value.goal.value
    ensures res.Success? && res.value.goal.None? ==>
              res.value.path == [] && forall p :: IsPathFrom(g, start, p) ==> Last(p) !in goals
    ensures start in goals ==> res == Success(SearchResult(Some(start), 1, [start]))
  {
    if |goals| == 0 {
      return Failure(NoGoals);
    }
    var r := GreedySearch(g, start, MemberTest(goals), goals[0], h);
    return Success(r);
  }

  /** `astar` as written, with at most `fuel` pops. */
  method AStar(g: Graph, start: NodeId, goals: seq<NodeId>, h: (NodeId, NodeId) -> real, fuel: nat)
    returns (res: Result<SearchResult, SearchError>)
    ensures goals == [] ==> res == Failure(NoGoals)
    ensures res.Failure? ==> res.error == NoGoals || res.error == FuelExhausted
    ensures res.Success? ==> 1 <= res.value.count <= fuel
    ensures res.Success? && res.value.goal.Some? ==>
              IsSubstring(res.value.goal.value, goals[0]) && IsPathFrom(g, start, res.value.path) && Last(res.value.path) == res.value.goal.value
    ensures res.Success? && res.value.goal.None? ==>
              res.value.path == [] && forall p :: IsPathFrom(g, start, p) ==> !IsSubstring(Last(p), goals[0])
    ensures |goals| > 0 && IsSubstring(start, goals[0]) && fuel >= 1 ==> res == Success(SearchResult(Some(start), 1, [start]))
  {
    if |goals| == 0 {
      return Failure(NoGoals);
    }
    res := AStarSearch(g, start, FirstGoalTest(goals), goals[0], h, fuel);
  }

  /** `astar` with the goal test the other searches use. */
  method AStarIntended(g: Graph, start: NodeId, goals: seq<NodeId>, h: (NodeId, NodeId) -> real, fuel: nat)
    returns (res: Result<SearchResult, SearchError>)
    ensures goals == [] ==> res == Failure(NoGoals)
    ensures res.Failure? ==> res.error == NoGoals || res.error == FuelExhausted
    ensures res.Success? ==> 1 <= res.value.count <= fuel
    ensures res.Success? && res.value.goal.Some? ==>
              res.value.goal.value in goals && IsPathFrom(g, start, res.value.path) && Last(res.value.path) == res.value.goal.value
    ensures res.Success? && res.value.goal.None? ==>
              res.value.path == [] && forall p :: IsPathFrom(g, start, p) ==> Last(p) !in goals
    ensures start in goals && fuel >= 1 ==> res == Success(SearchResult(Some(start), 1, [start]))
  {
    if |goals| == 0 {
      return Failure(NoGoals);
    }
    res := AStarSearch(g, start, MemberTest(goals), goals[0], h, fuel);
  }

  /** `custom_informed` runs `astar`. */
  method CustomInformed(g: Graph, start: NodeId, goals: seq<NodeId>, h: (NodeId, NodeId) -> real, fuel: nat)
    returns (res: Result<SearchResult, SearchError>)
    ensures goals == [] ==> res == Failure(NoGoals)
    ensures res.Failure? ==> res.error == NoGoals || res.error == FuelExhausted
    ensures res.Success? ==> 1 <= res.value.count <= fuel
    ensures res.Success? && res.value.goal.Some? ==>
              IsSubstring(res.value.goal.value, goals[0]) && IsPathFrom(g, start, res.value.path) && Last(res.value.path) == res.value.goal.value
    ensures res.Success? && res.value.goal.None? ==>
              res.value.path == [] && forall p :: IsPathFrom(g, start, p) ==> !IsSubstring(Last(p), goals[0])
    ensures |goals| > 0 && IsSubstring(start, goals[0]) && fuel >= 1 ==> res == Success(SearchResult(Some(start), 1, [start]))
  {
    res := AStar(g, start, goals, h, fuel);
  }

  /** The substring test accepts a start that is no destination (start `"1"`,
      destinations `["10"]`), and rejects a destination other than the first
      (`"B"` in `["A", "B"]`); membership does neither. */
  lemma FirstGoalTestCounterexample()
    ensures FirstGoalTest(["10"])("1") && !MemberTest(["10"])("1")
    ensures !FirstGoalTest(["A", "B"])("B") && MemberTest(["A", "B"])("B")
  {
    assert OccursAt("1", "10", 0);
    forall i | 0 <= i && i + 1 <= |"A"|
      ensures !OccursAt("B", "A", i)
    {
      assert "A"[i..i + 1][0] == 'A';
    }
  }
}

=== FILE: levels.dfy ===
/** The level structure behind `bfs`'s shortest-path guarantee: along the
    FIFO queue path lengths never decrease and span at most two values, and
    every node some shorter path reaches has already been expanded. */
module Levels {
  import opened Graph
  import opened Frontier
  import opened Search

  /** Path lengths along the `bfs` queue never decrease and stay within one
      of the head's. */
  ghost predicate Layered(q: seq<Entry>) {
    && (forall i, j :: 0 <= i < j < |q| ==> |q[i].path| <= |q[j].path|)
    && (forall i :: 0 <= i < |q| ==> |q[i].path| <= |q[0].path| + 1)
  }

  /** `depth[v]` is the length of the path `v` was expanded with; no path from
      `start` to `v` is shorter. */
  ghost predicate DepthsShortest(g: Graph, start: NodeId, depth: map<NodeId, nat>) {
    forall p :: IsPathFrom(g, start, p) && Last(p) in depth ==> depth[Last(p)] <= |p|
  }

  ghost predicate InFrontierWithin(q: seq<Entry>, n: NodeId, len: nat) {
    exists i :: 0 <= i < |q| && q[i].node == n && |q[i].path| <= len
  }

  /** Each edge leaving an expanded node leads to an expanded node or to a
      queued tuple at most one step longer than the expansion. */
  ghost predicate CoveredWithin(g: Graph, depth: map<NodeId, nat>, q: seq<Entry>) {
    forall v, e :: v in depth && e in Neighbors(g, v) ==> e.dst in depth || InFrontierWithin(q, e.dst, depth[v] + 1)
  }

  /** The facts beyond `SearchInv` that hold at the top of every `bfs` iteration. */
  ghost predicate BfsInv(g: Graph, start: NodeId, visited: set<NodeId>, depth: map<NodeId, nat>, q: seq<Entry>) {
    && depth.Keys == visited
    && Layered(q)
    && DepthsShortest(g, start, depth)
    && CoveredWithin(g, depth, q)
  }

  /** Once the head of the queue is a path of length `L`, every node some path
      shorter than `L` reaches has been expanded. */
  lemma {:induction false} LevelComplete(g: Graph, start: NodeId, depth: map<NodeId, nat>, q: seq<Entry>, p: seq<NodeId>)
    requires |q| > 0 && Layered(q)
    requires CoveredWithin(g, depth, q) && DepthsShortest(g, start, depth)
    requires start in depth || |q[0].path| == 1
    requires IsPathFrom(g, start, p) && |p| < |q[0].path|
    ensures Last(p) in depth
    decreases |p|
  {
    if |p| >= 2 {
      var p' := p[..|p| - 1];
      PathPrefix(g, start, p);
      LevelComplete(g, start, depth, q, p');
      var e :| e in Neighbors(g, Last(p')) && e.dst == Last(p);
    }
  }

  /** A first expansion at the head of the queue keeps `BfsInv`. */
  lemma BfsStepExpand(g: Graph, start: NodeId, visited: set<NodeId>, depth: map<NodeId, nat>, q: seq<Entry>,
                      nbrs: seq<Edge>)
    requires BfsInv(g, start, visited, depth, q)
    requires |q| > 0 && q[0].node !in visited
    requires start in visited || |q[0].path| == 1
    requires forall e :: e in Neighbors(g, q[0].node) ==> e in nbrs
    ensures BfsInv(g, start, visited + {q[0].node}, depth[q[0].node := |q[0].path|],
                   q[1..] + Successors(q[0].path, nbrs, visited + {q[0].node}, NoKey))
  {
    var pushed := Successors(q[0].path, nbrs, visited + {q[0].node}, NoKey);
    assert forall i :: 0 <= i < |pushed| ==> |pushed[i].path| == |q[0].path| + 1;
    LayeredAfterPush(q, pushed);
    DepthsAfterExpand(g, start, depth, q);
    CoveredWithinAfterExpand(g, visited, depth, q, nbrs);
  }

  /** Popping the head and appending tuples one step longer keeps the queue layered. */
  lemma LayeredAfterPush(q: seq<Entry>, pushed: seq<Entry>)
    requires |q| > 0 && Layered(q)
    requires forall i :: 0 <= i < |pushed| ==> |pushed[i].path| == |q[0].path| + 1
    ensures Layered(q[1..] + pushed)
  {
    var L := |q[0].path|;
    var q' := q[1..] + pushed;
    forall i | 0 <= i < |q'|
      ensures L <= |q'[i].path| <= L + 1
    {
      if i < |q| - 1 {
        assert q'[i] == q[i + 1];
      } else {
        assert q'[i] == pushed[i - (|q| - 1)];
      }
    }
    forall i, j | 0 <= i < j < |q'|
      ensures |q'[i].path| <= |q'[j].path|
    {
      if j < |q| - 1 {
        assert q'[i] == q[i + 1] && q'[j] == q[j + 1];
      } else {
        assert q'[j] == pushed[j - (|q| - 1)];
      }
    }
  }

  /** The head's path is a shortest path to its node, so recording its length
      keeps `DepthsShortest`. */
  lemma DepthsAfterExpand(g: Graph, start: NodeId, depth: map<NodeId, nat>, q: seq<Entry>)
    requires |q| > 0 && Layered(q) && q[0].node !in depth
    requires CoveredWithin(g, depth, q) && DepthsShortest(g, start, depth)
    requires start in depth || |q[0].path| == 1
    ensures DepthsShortest(g, start, depth[q[0].node := |q[0].path|])
  {
    var depth' := depth[q[0].node := |q[0].path|];
    forall p | IsPathFrom(g, start, p) && Last(p) in depth'
      ensures depth'[Last(p)] <= |p|
    {
      if Last(p) == q[0].node && |p| < |q[0].path| {
        LevelComplete(g, start, depth, q, p);
      }
    }
  }

  lemma CoveredWithinAfterExpand(g: Graph, visited: set<NodeId>, depth: map<NodeId, nat>, q: seq<Entry>, nbrs: seq<Edge>)
    requires depth.Keys == visited
    requires |q| > 0 && q[0].node !in visited
    requires CoveredWithin(g, depth, q)
    requires forall e :: e in Neighbors(g, q[0].node) ==> e in nbrs
    ensures CoveredWithin(g, depth[q[0].node := |q[0].path|],
                          q[1..] + Successors(q[0].path, nbrs, visited + {q[0].node}, NoKey))
  {
    var x := q[0];
    var visited' := visited + {x.node};
    var depth' := depth[x.node := |x.path|];
    var pushed := Successors(x.path, nbrs, visited', NoKey);
    var q' := q[1..] + pushed;
    forall v, e | v in depth' && e in Neighbors(g, v)
      ensures e.dst in depth' || InFrontierWithin(q', e.dst, depth'[v] + 1)
    {
      if v == x.node {
        if e.dst !in visited' {
          SuccessorFor(x.path, nbrs, visited', NoKey, e);
          var i :| 0 <= i < |pushed| && pushed[i] == Entry(NoKey(e), e.dst, x.path + [e.dst]);
          assert q'[|q| - 1 + i] == pushed[i];
        }
      } else if e.dst !in depth {
        var i :| 0 <= i < |q| && q[i].node == e.dst && |q[i].path| <= depth[v] + 1;
        if i > 0 {
          assert q'[i - 1] == q[i];
        }
      }
    }
  }

  /** When the head of the queue reaches a goal, no path from `start` reaches a
      goal in fewer steps: those nodes were all expanded, and expanded nodes
      are no goals. */
  lemma BfsFoundShortest(g: Graph, start: NodeId, goals: seq<NodeId>, visited: set<NodeId>, depth: map<NodeId, nat>, q: seq<Entry>)
    requires BfsInv(g, start, visited, depth, q) && |q| > 0
    requires start in visited || |q[0].path| == 1
    requires forall v :: v in visited ==> v !in goals
    ensures forall p :: IsPathFrom(g, start, p) && Last(p) in goals ==> |q[0].path| <= |p|
  {
    forall p | IsPathFrom(g, start, p) && Last(p) in goals
      ensures |q[0].path| <= |p|
    {
      if |p| < |q[0].path| {
        LevelComplete(g, start, depth, q, p);
      }
    }
  }

  /** Dropping the head of the queue when its node is already expanded keeps
      `BfsInv`. */
  lemma BfsStepSkip(g: Graph, start: NodeId, visited: set<NodeId>, depth: map<NodeId, nat>, q: seq<Entry>)
    requires BfsInv(g, start, visited, depth, q)
    requires |q| > 0 && q[0].node in visited
    ensures BfsInv(g, start, visited, depth, q[1..])
  {
    var q' := q[1..];
    assert Layered(q') by {
      forall i | 0 <= i < |q'|
        ensures |q'[i].path| <= |q'[0].path| + 1
      {
        assert q'[i] == q[i + 1] && q'[0] == q[1];
      }
    }
    forall v, e | v in depth && e in Neighbors(g, v)
      ensures e.dst in depth || InFrontierWithin(q', e.dst, depth[v] + 1)
    {
      if e.dst !in depth {
        var i :| 0 <= i < |q| && q[i].node == e.dst && |q[i].path| <= depth[v] + 1;
        assert i > 0 && q'[i - 1] == q[i];
      }
    }
  }

  /** A first expansion of the head of the queue keeps both invariants. */
  lemma BfsExpand(g: Graph, start: NodeId, isGoal: NodeId -> bool, visited: set<NodeId>, depth: map<NodeId, nat>,
                  q: seq<Entry>, count: nat, nbrs: seq<Edge>)
    requires SearchInv(g, start, isGoal, visited, q, count) && BfsInv(g, start, visited, depth, q)
    requires |q| > 0 && !isGoal(q[0].node) && q[0].node !in visited
    requires multiset(nbrs) == multiset(Neighbors(g, q[0].node))
    ensures var q' := q[1..] + Successors(q[0].path, nbrs, visited + {q[0].node}, NoKey);
            && SearchInv(g, start, isGoal, visited + {q[0].node}, q', count + 1)
            && BfsInv(g, start, visited + {q[0].node}, depth[q[0].node := |q[0].path|], q')
    ensures |Universe(g, start) - (visited + {q[0].node})| < |Universe(g, start) - visited|
  {
    assert q[1..] == RemoveAt(q, 0);
    StepExpand(g, start, isGoal, visited, q, count, 0, nbrs, NoKey);
    SortedNeighbors(g, q[0].node, nbrs);
    BfsStepExpand(g, start, visited, depth, q, nbrs);
  }

  /** Dropping an already expanded head keeps both invariants. */
  lemma BfsSkip(g: Graph, start: NodeId, isGoal: NodeId -> bool, visited: set<NodeId>, depth: map<NodeId, nat>,
                q: seq<Entry>, count: nat)
    requires SearchInv(g, start, isGoal, visited, q, count) && BfsInv(g, start, visited, depth, q)
    requires |q| > 0 && !isGoal(q[0].node) && q[0].node in visited
    ensures SearchInv(g, start, isGoal, visited, q[1..], count + 1) && BfsInv(g, start, visited, depth, q[1..])
  {
    assert q[1..] == RemoveAt(q, 0);
    StepSkip(g, start, isGoal, visited, q, count, 0);
    BfsStepSkip(g, start, visited, depth, q);
  }

  /** What `bfs` returns with when the head of the queue is a goal. */
  lemma BfsFound(g: Graph, start: NodeId, goals: seq<NodeId>, isGoal: NodeId -> bool, visited: set<NodeId>,
                 depth: map<NodeId, nat>, q: seq<Entry>, count: nat)
    requires forall n :: isGoal(n) <==> n in goals
    requires SearchInv(g, start, isGoal, visited, q, count) && BfsInv(g, start, visited, depth, q)
    requires |q| > 0
    ensures count + 1 <= 1 + TotalEdges(g)
    ensures IsPathFrom(g, start, q[0].path) && Last(q[0].path) == q[0].node
    ensures forall p :: IsPathFrom(g, start, p) && Last(p) in goals ==> |q[0].path| <= |p|
    ensures start in goals ==> q[0].node == start && q[0].path == [start]
  {
    FoundResult(g, start, isGoal, visited, q, count, 0);
    BfsFoundShortest(g, start, goals, visited, depth, q);
  }
}

=== FILE: loader.dfy ===
/** The line-by-line state machine of `load_problem`: each line is stripped;
    blank lines are skipped; a line starting with `Nodes:`, `Edges:`,
    `Origin:` or `Destinations:` switches the section; any other line is read
    according to the current section. Opening the file is left to the caller,
    who supplies its lines, and `float(...)` is the parameter `num`. */
module Loader {
  import opened Wrappers
  import opened Text
  import opened Graph

  datatype Section = Unset | NodesSection | EdgesSection | OriginSection | DestSection

  /** `(nodes, edges, origin, destinations)` as `load_problem` returns them. */
  datatype Problem = Problem(nodes: map<NodeId, (real, real)>, edges: Graph, origin: Option<NodeId>, destinations: seq<NodeId>)

  datatype LoadState = LoadState(section: Section, problem: Problem)

  /** `MalformedLine`: a tuple unpacking of `split` received the wrong number
      of pieces (`ValueError`); `BadNumber`: `float` rejected a token. */
  datatype LoadError = MalformedLine(line: string) | BadNumber(token: string)

  const Initial := LoadState(Unset, Problem(map[], map[], None, []))

  /** The characters `strip(" ()")` removes. */
  const Brackets: set<char> := {' ', '(', ')'}

  /** The section a header line switches to, if the line is a header. */
  function HeaderOf(line: string): (r: Option<Section>)
    ensures r.Some? ==> r.value != Unset
    ensures r.Some? ==> |line| > 0 && line[0] in "NEOD"
    ensures ':' !in line ==> r.None?
    ensures r == Some(NodesSection) <==> StartsWith(line, "Nodes:")
    ensures r == Some(EdgesSection) <==> StartsWith(line, "Edges:")
    ensures r == Some(OriginSection) <==> StartsWith(line, "Origin:")
    ensures r == Some(DestSection) <==> StartsWith(line, "Destinations:")
  {
    if StartsWith(line, "Nodes:") then
      assert line[5] == "Nodes:"[5];
      Some(NodesSection)
    else if StartsWith(line, "Edges:") then
      assert line[5] == "Edges:"[5];
      Some(EdgesSection)
    else if StartsWith(line, "Origin:") then
      assert line[6] == "Origin:"[6];
      Some(OriginSection)
    else if StartsWith(line, "Destinations:") then
      assert line[12] == "Destinations:"[12];
      Some(DestSection)
    else None
  }

  /** `float(token)` */
  function Number(token: string, num: string -> Option<real>): (r: Result<real, LoadError>)
    ensures r.Success? <==> num(token).Some?
    ensures r.Success? ==> r.value == num(token).value
    ensures r.Failure? ==> r.error == BadNumber(token)
  {
    match num(token)
    case Some(v) => Success(v)
    case None => Failure(BadNumber(token))
  }

  /** `node, coords = line.split(':')`, `x, y = coords.strip(" ()").split(',')`,
      then `nodes[node.strip()] = (float(x), float(y))`. */
  function ParseNode(line: string, num: string -> Option<real>): (r: Result<(NodeId, (real, real)), LoadError>)
    ensures r.Success? ==> Strip(r.value.0) == r.value.0
    ensures r.Failure? ==> r.error == MalformedLine(line) || r.error.BadNumber?
    ensures |Split(line, ':')| != 2 ==> r == Failure(MalformedLine(line))
    ensures |Split(line, ':')| == 2 && |Split(StripChars(Split(line, ':')[1], Brackets), ',')| != 2 ==>
              r == Failure(MalformedLine(line))
    ensures r.Failure? && r.error.BadNumber? ==>
              num(r.error.token).None? && r.error.token in Split(StripChars(Split(line, ':')[1], Brackets), ',')
    ensures |Split(line, ':')| == 2 ==>
              var xy := Split(StripChars(Split(line, ':')[1], Brackets), ',');
              |xy| == 2 && num(xy[0]).Some? && num(xy[1]).Some? ==>
                r == Success((Strip(Split(line, ':')[0]), (num(xy[0]).value, num(xy[1]).value)))
    ensures |Split(line, ':')| == 2 ==>
              var xy := Split(StripChars(Split(line, ':')[1], Brackets), ',');
              |xy| == 2 && num(xy[0]).None? ==> r == Failure(BadNumber(xy[0]))
    ensures |Split(line, ':')| == 2 ==>
              var xy := Split(StripChars(Split(line, ':')[1], Brackets), ',');
              |xy| == 2 && num(xy[0]).Some? && num(xy[1]).None? ==> r == Failure(BadNumber(xy[1]))
  {
    var parts := Split(line, ':');
    if |parts| != 2 then Failure(MalformedLine(line))
    else
      var xy := Split(StripChars(parts[1], Brackets), ',');
      if |xy| != 2 then Failure(MalformedLine(line))
      else
        var x :- Number(xy[0], num);
        var y :- Number(xy[1], num);
        StripIdempotent(parts[0], IsSpace);
        Success((Strip(parts[0]), (x, y)))
  }

  /** `left, cost = line.split(':')`, `a, b = left.strip(" ()").split(',')`,
      `cost = float(cost.strip())`, then `(b.strip(), cost)` is appended to
      the list of `a.strip()`. */
  function ParseEdge(line: string, num: string -> Option<real>): (r: Result<(NodeId, Edge), LoadError>)
    ensures r.Success? ==> Strip(r.value.0) == r.value.0 && Strip(r.value.1.dst) == r.value.1.dst
    ensures r.Failure? ==> r.error == MalformedLine(line) || r.error.BadNumber?
    ensures |Split(line, ':')| != 2 ==> r == Failure(MalformedLine(line))
    ensures |Split(line, ':')| == 2 && |Split(StripChars(Split(line, ':')[0], Brackets), ',')| != 2 ==>
              r == Failure(MalformedLine(line))
    ensures r.Failure? && r.error.BadNumber? ==>
              num(r.error.token).None? && r.error.token == Strip(Split(line, ':')[1])
    ensures |Split(line, ':')| == 2 ==>
              var ab := Split(StripChars(Split(line, ':')[0], Brackets), ',');
              var cost := Strip(Split(line, ':')[1]);
              |ab| == 2 && num(cost).Some? ==>
                r == Success((Strip(ab[0]), Edge(Strip(ab[1]), num(cost).value)))
    ensures |Split(line, ':')| == 2 ==>
              var ab := Split(StripChars(Split(line, ':')[0], Brackets), ',');
              var cost := Strip(Split(line, ':')[1]);
              |ab| == 2 && num(cost).None? ==> r == Failure(BadNumber(cost))
  {
    var parts := Split(line, ':');
    if |parts| != 2 then Failure(MalformedLine(line))
    else
      var ab := Split(StripChars(parts[0], Brackets), ',');
      if |ab| != 2 then Failure(MalformedLine(line))
      else
        var c :- Number(Strip(parts[1]), num);
        StripIdempotent(ab[0], IsSpace);
        StripIdempotent(ab[1], IsSpace);
        Success((Strip(ab[0]), Edge(Strip(ab[1]), c)))
  }

  /** `[d.strip() for d in line.split(";")]` */
  function ParseDestinations(line: string): (r: seq<NodeId>)
    ensures |r| == |Split(line, ';')|
    ensures forall i :: 0 <= i < |r| ==> r[i] == Strip(Split(line, ';')[i])
    ensures forall i :: 0 <= i < |r| ==> Strip(r[i]) == r[i]
  {
    var ds := Split(line, ';');
    forall i | 0 <= i < |ds|
      ensures Strip(Strip(ds[i])) == Strip(ds[i])
    {
      StripIdempotent(ds[i], IsSpace);
    }
    seq(|ds|, i requires 0 <= i < |ds| => Strip(ds[i]))
  }

  /** `edges.setdefault(a, []).append(e)` */
  function AddEdge(edges: Graph, a: NodeId, e: Edge): (r: Graph)
    ensures r.Keys == edges.Keys + {a}
    ensures Neighbors(r, a) == Neighbors(edges, a) + [e]
    ensures forall k :: k != a ==> Neighbors(r, k) == Neighbors(edges, k)
  {
    edges[a := Neighbors(edges, a) + [e]]
  }

  /** One iteration of the loop over the file's lines. */
  function ProcessLine(st: LoadState, raw: string, num: string -> Option<real>): (r: Result<LoadState, LoadError>)
    ensures Strip(raw) == [] ==> r == Success(st)
    ensures Strip(raw) != [] && HeaderOf(Strip(raw)).Some? ==>
              r == Success(LoadState(HeaderOf(Strip(raw)).value, st.problem))
    ensures r.Success? && (Strip(raw) == [] || HeaderOf(Strip(raw)).None?) ==> r.value.section == st.section
    ensures st.section == Unset && HeaderOf(Strip(raw)).None? ==> r == Success(st)
    ensures r.Failure? ==> st.section == NodesSection || st.section == EdgesSection
    ensures Strip(raw) != [] && HeaderOf(Strip(raw)).None? && st.section == NodesSection &&
            ParseNode(Strip(raw), num).Failure?
            ==> r == Failure(ParseNode(Strip(raw), num).error)
    ensures Strip(raw) != [] && HeaderOf(Strip(raw)).None? && st.section == EdgesSection &&
            ParseEdge(Strip(raw), num).Failure?
            ==> r == Failure(ParseEdge(Strip(raw), num).error)
  {
    var line := Strip(raw);
    if line == [] then Success(st)
    else
      match HeaderOf(line)
      case Some(section) => Success(LoadState(section, st.problem))
      case None =>
        var p := st.problem;
        match st.section
        case Unset => Success(st)
        case NodesSection =>
          var entry :- ParseNode(line, num);
          Success(st.(problem := p.(nodes := p.nodes[entry.0 := entry.1])))
        case EdgesSection =>
          var entry :- ParseEdge(line, num);
          Success(st.(problem := p.(edges := AddEdge(p.edges, entry.0, entry.1))))
        case OriginSection =>
          Success(st.(problem := p.(origin := Some(Strip(line)))))
        case DestSection =>
          Success(st.(problem := p.(destinations := ParseDestinations(line))))
  }

  /** The loop over the remaining lines; the first error ends it. */
  function LoadFrom(st: LoadState, lines: seq<string>, num: string -> Option<real>): Result<LoadState, LoadError>
    decreases |lines|
  {
    if |lines| == 0 then Success(st)
    else
      var st' :- ProcessLine(st, lines[0], num);
      LoadFrom(st', lines[1..], num)
  }

  /** `load_problem` on a file with these lines. */
  function LoadProblem(lines: seq<string>, num: string -> Option<real>): Result<Problem, LoadError> {
    var st :- LoadFrom(Initial, lines, num);
    Success(st.problem)
  }

  /** Loading a concatenation loads the first part, then the second from
      where the first left off. */
  lemma {:induction false} LoadAppend(st: LoadState, a: seq<string>, b: seq<string>, num: string -> Option<real>)
    ensures LoadFrom(st, a + b, num) ==
              match LoadFrom(st, a, num)
              case Success(mid) => LoadFrom(mid, b, num)
              case Failure(e) => Failure(e)
    decreases |a|
  {
    if |a| > 0 {
      assert (a + b)[0] == a[0] && (a + b)[1..] == a[1..] + b;
      var r := ProcessLine(st, a[0], num);
      if r.Success? {
        LoadAppend(r.value, a[1..], b, num);
      }
    } else {
      assert a + b == b;
    }
  }

  /** A blank line anywhere in the file changes nothing. */
  lemma BlankLineIgnored(a: seq<string>, blank: string, b: seq<string>, num: string -> Option<real>)
    requires Strip(blank) == []
    ensures LoadProblem(a + [blank] + b, num) == LoadProblem(a + b, num)
  {
    LoadAppend(Initial, a, [blank] + b, num);
    LoadAppend(Initial, a, b, num);
    assert a + [blank] + b == a + ([blank] + b);
    match LoadFrom(Initial, a, num)
    case Success(mid) =>
      assert ([blank] + b)[1..] == b;
    case Failure(_) =>
  }

  /** A field as a well-formed file writes it: non-empty, without surrounding
      whitespace, and free of the characters in `forbidden`. */
  predicate Field(s: string, forbidden: set<char>) {
    && |s| > 0 && !IsSpace(s[0]) && !IsSpace(s[|s| - 1])
    && forall c :: c in forbidden ==> c !in s
  }

  /** `strip()` leaves a string that starts and ends outside whitespace
      unchanged: a field or a data line as a well-formed file writes it. */
  lemma StripUnpadded(s: string)
    requires |s| > 0 && !IsSpace(s[0]) && !IsSpace(s[|s| - 1])
    ensures Strip(s) == s
  {
    assert [] + s + [] == s;
    StripFramed([], s, [], IsSpace);
  }

  predicate IsHeaderName(id: string) {
    id == "Nodes" || id == "Edges" || id == "Origin" || id == "Destinations"
  }

  /** A line whose first `:` directly follows `id` starts with `name:` only
      when `id` is `name`. */
  lemma NoHeaderPrefix(id: string, rest: string, name: string)
    requires ':' !in id && ':' !in name && id != name
    requires |rest| > 0 && rest[0] == ':'
    ensures !StartsWith(id + rest, name + ":")
  {
    var s := id + rest;
    var p := name + ":";
    if |p| <= |s| {
      if |id| < |name| {
        assert s[|id|] == ':' && p[|id|] == name[|id|];
        assert s[..|p|][|id|] != p[|id|];
      } else if |id| > |name| {
        assert s[|name|] == id[|name|] && p[|name|] == ':';
        assert s[..|p|][|name|] != p[|name|];
      } else {
        assert s[..|name|] == id && p[..|name|] == name;
        assert s[..|p|][..|name|] != p[..|name|];
      }
    }
  }

  lemma NotHeader(id: string, rest: string)
    requires ':' !in id && !IsHeaderName(id)
    requires |rest| > 0 && rest[0] == ':'
    ensures HeaderOf(id + rest).None?
  {
    NoHeaderPrefix(id, rest, "Nodes");
    NoHeaderPrefix(id, rest, "Edges");
    NoHeaderPrefix(id, rest, "Origin");
    NoHeaderPrefix(id, rest, "Destinations");
  }

  /** The line `id: (xs,ys)` of the `Nodes:` section. */
  function NodeLine(id: NodeId, xs: string, ys: string): string {
    id + ": (" + xs + "," + ys + ")"
  }

  /** The line `(a,b): cs` of the `Edges:` section. */
  function EdgeLine(a: NodeId, b: NodeId, cs: string): string {
    "(" + a + "," + b + "): " + cs
  }

  /** Splitting `x + [sep] + y` where neither part holds `sep` gives the two parts. */
  lemma SplitTwo(x: string, y: string, sep: char)
    requires sep !in x && sep !in y
    ensures Split(x + [sep] + y, sep) == [x, y]
  {
    SplitAtSeparator(x, y, sep);
    SplitNoSeparator(x, sep);
    SplitNoSeparator(y, sep);
  }

  /** `strip(" ()")` removes the opening and closing brackets around two
      comma-separated fields, and `split(',')` then yields the fields. */
  lemma BracketedPair(open: string, x: string, y: string)
    requires forall i :: 0 <= i < |open| ==> open[i] in Brackets
    requires Field(x, {':', ','}) && Field(y, {':', ','})
    requires x[0] !in Brackets && y[|y| - 1] !in Brackets
    ensures Split(StripChars(open + x + "," + y + ")", Brackets), ',') == [x, y]
  {
    var mid := x + [','] + y;
    assert open + x + "," + y + ")" == open + mid + ")";
    StripFramed(open, mid, ")", CharIn(Brackets));
    SplitTwo(x, y, ',');
  }

  lemma ParseNodeLine(id: NodeId, xs: string, ys: string, x: real, y: real, num: string -> Option<real>)
    requires Field(id, {':'})
    requires Field(xs, {':', ','}) && Field(ys, {':', ','})
    requires xs[0] !in Brackets && ys[|ys| - 1] !in Brackets
    requires num(xs) == Some(x) && num(ys) == Some(y)
    ensures ParseNode(NodeLine(id, xs, ys), num) == Success((id, (x, y)))
  {
    var rest := " (" + xs + "," + ys + ")";
    assert NodeLine(id, xs, ys) == id + [':'] + rest;
    SplitTwo(id, rest, ':');
    BracketedPair(" (", xs, ys);
    StripUnpadded(id);
  }

  /** Reading a node line stores the node's coordinates under its id. */
  lemma NodeLineRoundTrip(st: LoadState, id: NodeId, xs: string, ys: string, x: real, y: real, num: string -> Option<real>)
    requires st.section == NodesSection
    requires Field(id, {':'}) && !IsHeaderName(id)
    requires Field(xs, {':', ','}) && Field(ys, {':', ','})
    requires xs[0] !in Brackets && ys[|ys| - 1] !in Brackets
    requires num(xs) == Some(x) && num(ys) == Some(y)
    ensures ProcessLine(st, NodeLine(id, xs, ys), num) ==
              Success(st.(problem := st.problem.(nodes := st.problem.nodes[id := (x, y)])))
  {
    var line := NodeLine(id, xs, ys);
    StripUnpadded(line);
    assert line == id + (": (" + xs + "," + ys + ")");
    NotHeader(id, ": (" + xs + "," + ys + ")");
    ParseNodeLine(id, xs, ys, x, y, num);
  }

  lemma ParseEdgeLine(a: NodeId, b: NodeId, cs: string, c: real, num: string -> Option<real>)
    requires Field(a, {':', ','}) && Field(b, {':', ','}) && Field(cs, {':'})
    requires a[0] !in Brackets && b[|b| - 1] !in Brackets
    requires num(cs) == Some(c)
    ensures ParseEdge(EdgeLine(a, b, cs), num) == Success((a, Edge(b, c)))
  {
    var left := "(" + a + "," + b + ")";
    assert EdgeLine(a, b, cs) == left + [':'] + (" " + cs);
    SplitTwo(left, " " + cs, ':');
    BracketedPair("(", a, b);
    SpacedField(cs);
    StripUnpadded(a);
    StripUnpadded(b);
  }

  lemma SpacedField(cs: string)
    requires Field(cs, {':'})
    ensures Strip(" " + cs) == cs
  {
    assert " " + cs == " " + cs + [];
    StripFramed(" ", cs, [], IsSpace);
  }

  /** An edge line opens with `(` and ends with the cost's last character. */
  lemma EdgeLineEnds(a: NodeId, b: NodeId, cs: string)
    requires |cs| > 0
    ensures var line := EdgeLine(a, b, cs);
            line[0] == '(' && line[|line| - 1] == cs[|cs| - 1]
  {
  }

  /** Reading an edge line appends the pair `(b, cost)` to the list of `a`. */
  lemma EdgeLineRoundTrip(st: LoadState, a: NodeId, b: NodeId, cs: string, c: real, num: string -> Option<real>)
    requires st.section == EdgesSection
    requires Field(a, {':', ','}) && Field(b, {':', ','}) && Field(cs, {':'})
    requires a[0] !in Brackets && b[|b| - 1] !in Brackets
    requires num(cs) == Some(c)
    ensures ProcessLine(st, EdgeLine(a, b, cs), num) ==
              Success(st.(problem := st.problem.(edges := AddEdge(st.problem.edges, a, Edge(b, c)))))
  {
    var line := EdgeLine(a, b, cs);
    EdgeLineEnds(a, b, cs);
    StripUnpadded(line);
    assert HeaderOf(line).None?;
    ParseEdgeLine(a, b, cs, c, num);
  }

  /** Reading an origin line records the id. */
  lemma OriginLineRoundTrip(st: LoadState, id: NodeId, num: string -> Option<real>)
    requires st.section == OriginSection
    requires Field(id, {':'})
    ensures ProcessLine(st, id, num) == Success(st.(problem := st.problem.(origin := Some(id))))
  {
    StripUnpadded(id);
  }

  /** Destination ids joined by `;` form a line without `:` that starts and
      ends outside whitespace. */
  lemma JoinedDestinations(ds: seq<NodeId>)
    requires |ds| >= 1 && forall i :: 0 <= i < |ds| ==> Field(ds[i], {':', ';'})
    ensures ':' !in Join(ds, ';')
    ensures Strip(Join(ds, ';')) == Join(ds, ';')
  {
    var line := Join(ds, ';');
    if ':' in line {
      JoinChars(ds, ';', ':');
    }
    JoinEnds(ds, ';');
    StripUnpadded(line);
  }

  lemma ParseJoinedDestinations(ds: seq<NodeId>)
    requires |ds| >= 1 && forall i :: 0 <= i < |ds| ==> Field(ds[i], {':', ';'})
    ensures ParseDestinations(Join(ds, ';')) == ds
  {
    SplitJoin(ds, ';');
    var r := ParseDestinations(Join(ds, ';'));
    forall i | 0 <= i < |ds|
      ensures r[i] == ds[i]
    {
      StripUnpadded(ds[i]);
    }
  }

  /** Reading the `;`-separated destination line yields the destination list. */
  lemma DestinationsLineRoundTrip(st: LoadState, ds: seq<NodeId>, num: string -> Option<real>)
    requires st.section == DestSection
    requires |ds| >= 1 && forall i :: 0 <= i < |ds| ==> Field(ds[i], {':', ';'})
    ensures ProcessLine(st, Join(ds, ';'), num) == Success(st.(problem := st.problem.(destinations := ds)))
  {
    JoinedDestinations(ds);
    ParseJoinedDestinations(ds);
  }

  /** What `load_problem` can produce: every stored id has been stripped, and
      every adjacency list holds at least one pair. */
  predicate WellFormed(p: Problem) {
    && KeysStripped(p.nodes.Keys)
    && EdgesWellFormed(p.edges)
    && (p.origin.Some? ==> Stripped(p.origin.value))
    && (forall i :: 0 <= i < |p.destinations| ==> Stripped(p.destinations[i]))
  }

  /** `s.strip()` leaves `s` as it is. */
  predicate Stripped(s: string) {
    Strip(s) == s
  }

  predicate KeysStripped(keys: set<NodeId>) {
    forall k :: k in keys ==> Stripped(k)
  }

  /** Every adjacency list is non-empty and names stripped nodes only. */
  predicate EdgesWellFormed(edges: Graph) {
    && KeysStripped(edges.Keys)
    && forall k :: k in edges ==> ListWellFormed(edges[k])
  }

  predicate ListWellFormed(list: seq<Edge>) {
    |list| > 0 && forall i :: 0 <= i < |list| ==> Stripped(list[i].dst)
  }

  lemma AddNodeWellFormed(p: Problem, k: NodeId, xy: (real, real))
    requires WellFormed(p) && Stripped(k)
    ensures WellFormed(p.(nodes := p.nodes[k := xy]))
  {
    assert p.nodes[k := xy].Keys == p.nodes.Keys + {k};
  }

  lemma ListAppendWellFormed(list: seq<Edge>, e: Edge)
    requires list == [] || ListWellFormed(list)
    requires Stripped(e.dst)
    ensures ListWellFormed(list + [e])
  {
    var r := list + [e];
    forall i | 0 <= i < |r|
      ensures Stripped(r[i].dst)
    {
      if i < |list| {
        assert r[i] == list[i];
      }
    }
  }

  lemma AddEdgeWellFormed(p: Problem, a: NodeId, e: Edge)
    requires WellFormed(p) && Stripped(a) && Stripped(e.dst)
    ensures WellFormed(p.(edges := AddEdge(p.edges, a, e)))
  {
    var edges' := AddEdge(p.edges, a, e);
    ListAppendWellFormed(Neighbors(p.edges, a), e);
    forall k | k in edges'
      ensures ListWellFormed(edges'[k])
    {
      if k != a {
        assert edges'[k] == p.edges[k];
      }
    }
  }

  lemma ProcessLineWellFormed(st: LoadState, raw: string, num: string -> Option<real>)
    requires WellFormed(st.problem)
    ensures ProcessLine(st, raw, num).Success? ==> WellFormed(ProcessLine(st, raw, num).value.problem)
  {
    var line := Strip(raw);
    if line != [] && HeaderOf(line).None? {
      match st.section
      case NodesSection =>
        var r := ParseNode(line, num);
        if r.Success? {
          AddNodeWellFormed(st.problem, r.value.0, r.value.1);
        }
      case EdgesSection =>
        var r := ParseEdge(line, num);
        if r.Success? {
          AddEdgeWellFormed(st.problem, r.value.0, r.value.1);
        }
      case OriginSection =>
        StripIdempotent(line, IsSpace);
      case DestSection =>
      case Unset =>
    }
  }

  lemma {:induction false} LoadFromWellFormed(st: LoadState, lines: seq<string>, num: string -> Option<real>)
    requires WellFormed(st.problem)
    ensures LoadFrom(st, lines, num).Success? ==> WellFormed(LoadFrom(st, lines, num).value.problem)
    decreases |lines|
  {
    if |lines| > 0 {
      ProcessLineWellFormed(st, lines[0], num);
      var r := ProcessLine(st, lines[0], num);
      if r.Success? {
        LoadFromWellFormed(r.value, lines[1..], num);
      }
    }
  }

  /** Whatever `load_problem` returns is well-formed. */
  lemma LoadProblemWellFormed(lines: seq<string>, num: string -> Option<real>)
    ensures LoadProblem(lines, num).Success? ==> WellFormed(LoadProblem(lines, num).value)
  {
    LoadFromWellFormed(Initial, lines, num);
  }
}

=== FILE: ordering.dfy ===
/** Orders the program relies on: Python's comparison of strings (code point by
    code point, a proper prefix is smaller) and of lists (element by element),
    and the `sorted` built-in, modelled as an insertion sort under a strict total
    order. */
module Ordering {

  /** `less` is irreflexive, transitive and relates any two distinct values. */
  ghost predicate StrictTotalOrder<T(!new)>(less: (T, T) -> bool) {
    && (forall x :: !less(x, x))
    && (forall x, y, z :: less(x, y) && less(y, z) ==> less(x, z))
    && (forall x, y :: x != y ==> less(x, y) || less(y, x))
  }

  /** Lexicographic comparison as Python performs it on `str` and `list`: the
      first differing position decides, and a proper prefix is smaller. */
  predicate LexLess<T(==)>(a: seq<T>, b: seq<T>, less: (T, T) -> bool)
    decreases |a|
  {
    if |a| == 0 then |b| > 0
    else if |b| == 0 then false
    else if a[0] != b[0] then less(a[0], b[0])
    else LexLess(a[1..], b[1..], less)
  }

  lemma {:induction false} LexIrreflexive<T>(a: seq<T>, less: (T, T) -> bool)
    ensures !LexLess(a, a, less)
    decreases |a|
  {
    if |a| > 0 {
      LexIrreflexive(a[1..], less);
    }
  }

  lemma {:induction false} LexTransitive<T(!new)>(a: seq<T>, b: seq<T>, c: seq<T>, less: (T, T) -> bool)
    requires StrictTotalOrder(less)
    requires LexLess(a, b, less) && LexLess(b, c, less)
    ensures LexLess(a, c, less)
    decreases |a|
  {
    if |a| > 0 && a[0] == b[0] && b[0] == c[0] {
      LexTransitive(a[1..], b[1..], c[1..], less);
    }
  }

  lemma {:induction false} LexTotal<T(!new)>(a: seq<T>, b: seq<T>, less: (T, T) -> bool)
    requires StrictTotalOrder(less)
    requires a != b
    ensures LexLess(a, b, less) || LexLess(b, a, less)
    decreases |a|
  {
    if |a| > 0 && |b| > 0 && a[0] == b[0] {
      assert a == [a[0]] + a[1..] && b == [b[0]] + b[1..];
      LexTotal(a[1..], b[1..], less);
    }
  }

  predicate CharLess(c: char, d: char) {
    c < d
  }

  /** Python's `<` on `str`. */
  predicate StrLess(a: string, b: string) {
    LexLess(a, b, CharLess)
  }

  /** Python's `<=` on `str`. */
  predicate StrLessEq(a: string, b: string) {
    a == b || StrLess(a, b)
  }

  lemma StrLessStrictTotal()
    ensures StrictTotalOrder(StrLess)
  {
    assert StrictTotalOrder(CharLess);
    forall a: string {
      LexIrreflexive(a, CharLess);
    }
    forall a: string, b: string, c: string | StrLess(a, b) && StrLess(b, c) {
      LexTransitive(a, b, c, CharLess);
    }
    forall a: string, b: string | a != b {
      LexTotal(a, b, CharLess);
    }
  }

  /** Transitivity of `StrLess` at three given strings. */
  lemma StrLessTransitive(a: string, b: string, c: string)
    ensures StrLess(a, b) && StrLess(b, c) ==> StrLess(a, c)
  {
    if StrLess(a, b) && StrLess(b, c) {
      assert StrictTotalOrder(CharLess);
      LexTransitive(a, b, c, CharLess);
    }
  }

  /** At most one of `a < b` and `b < a` holds. */
  lemma StrLessAsymmetric(a: string, b: string)
    ensures !(StrLess(a, b) && StrLess(b, a))
  {
    StrLessTransitive(a, b, a);
    LexIrreflexive(a, CharLess);
  }

  /** Two distinct strings are ordered one way or the other. */
  lemma StrLessConnected(a: string, b: string)
    ensures a != b ==> StrLess(a, b) || StrLess(b, a)
  {
    if a != b {
      assert StrictTotalOrder(CharLess);
      LexTotal(a, b, CharLess);
    }
  }

  /** Python's `<` on a list of strings (a search path). */
  predicate PathLess(p: seq<string>, q: seq<string>) {
    LexLess(p, q, StrLess)
  }

  lemma PathLessStrictTotal()
    ensures StrictTotalOrder(PathLess)
  {
    StrLessStrictTotal();
    forall p: seq<string> {
      LexIrreflexive(p, StrLess);
    }
    forall p: seq<string>, q: seq<string>, r: seq<string> | PathLess(p, q) && PathLess(q, r) {
      LexTransitive(p, q, r, StrLess);
    }
    forall p: seq<string>, q: seq<string> | p != q {
      LexTotal(p, q, StrLess);
    }
  }

  /** Non-decreasing with respect to `less`: no later element is smaller. */
  ghost predicate SortedBy<T>(s: seq<T>, less: (T, T) -> bool) {
    forall i, j :: 0 <= i < j < |s| ==> !less(s[j], s[i])
  }

  /** Putting a value no element is below in front keeps a sequence ordered. */
  lemma SortedCons<T>(x: T, s: seq<T>, less: (T, T) -> bool)
    requires SortedBy(s, less)
    requires forall k :: 0 <= k < |s| ==> !less(s[k], x)
    ensures SortedBy([x] + s, less)
  {
    var r := [x] + s;
    forall i, j | 0 <= i < j < |r|
      ensures !less(r[j], r[i])
    {
      assert r[j] == s[j - 1];
      if i > 0 {
        assert r[i] == s[i - 1];
      }
    }
  }

  lemma HeadBelowInserted<T(!new)>(x: T, s: seq<T>, rest: seq<T>, less: (T, T) -> bool)
    requires StrictTotalOrder(less)
    requires SortedBy(s, less) && |s| > 0 && less(s[0], x)
    requires multiset(rest) == multiset(s[1..]) + multiset{x}
    ensures forall k :: 0 <= k < |rest| ==> !less(rest[k], s[0])
  {
    forall k | 0 <= k < |rest|
      ensures !less(rest[k], s[0])
    {
      assert rest[k] in multiset(rest);
      if rest[k] != x {
        assert rest[k] in multiset(s[1..]);
        var i :| 0 <= i < |s[1..]| && s[1..][i] == rest[k];
        assert s[i + 1] == rest[k];
      }
    }
  }

  lemma NewHeadBelow<T(!new)>(x: T, s: seq<T>, less: (T, T) -> bool)
    requires StrictTotalOrder(less)
    requires SortedBy(s, less) && |s| > 0 && !less(s[0], x)
    ensures forall k :: 0 <= k < |s| ==> !less(s[k], x)
  {
    forall k | 0 <= k < |s|
      ensures !less(s[k], x)
    {
      if k > 0 {
        assert !less(s[k], s[0]);
      }
    }
  }

  function InsertSorted<T(!new)>(x: T, s: seq<T>, less: (T, T) -> bool): (r: seq<T>)
    requires StrictTotalOrder(less)
    requires SortedBy(s, less)
    ensures SortedBy(r, less)
    ensures multiset(r) == multiset(s) + multiset{x}
    decreases |s|
  {
    if |s| == 0 then [x]
    else if less(s[0], x) then
      var rest := InsertSorted(x, s[1..], less);
      assert s == [s[0]] + s[1..];
      HeadBelowInserted(x, s, rest, less);
      SortedCons(s[0], rest, less);
      [s[0]] + rest
    else
      NewHeadBelow(x, s, less);
      SortedCons(x, s, less);
      [x] + s
  }

  /** Python's `sorted`: an ordered permutation of the input. */
  function Sort<T(!new)>(s: seq<T>, less: (T, T) -> bool): (r: seq<T>)
    requires StrictTotalOrder(less)
    ensures SortedBy(r, less)
    ensures multiset(r) == multiset(s)
    decreases |s|
  {
    if |s| == 0 then []
    else
      assert s == [s[0]] + s[1..];
      InsertSorted(s[0], Sort(s[1..], less), less)
  }

  /** The first element of an ordered sequence is not above any of its elements. */
  lemma SortedHeadLeast<T(!new)>(s: seq<T>, x: T, less: (T, T) -> bool)
    requires StrictTotalOrder(less)
    requires SortedBy(s, less)
    requires x in multiset(s)
    ensures !less(x, s[0])
  {
    var i :| 0 <= i < |s| && s[i] == x;
    if i > 0 {
      assert !less(s[i], s[0]);
    }
  }

  /** Under a strict total order a multiset has exactly one ordered arrangement. */
  lemma {:induction false} SortedUnique<T(!new)>(a: seq<T>, b: seq<T>, less: (T, T) -> bool)
    requires StrictTotalOrder(less)
    requires SortedBy(a, less) && SortedBy(b, less)
    requires multiset(a) == multiset(b)
    ensures a == b
    decreases |a|
  {
    assert |a| == |b| by {
      assert |multiset(a)| == |multiset(b)|;
    }
    if |a| > 0 {
      SortedSameHead(a, b, less);
      TailMultiset(a);
      TailMultiset(b);
      SortedTail(a, less);
      SortedTail(b, less);
      SortedUnique(a[1..], b[1..], less);
      SameHeadAndTail(a, b);
    }
  }

  /** Two ordered arrangements of one non-empty multiset start alike. */
  lemma SortedSameHead<T(!new)>(a: seq<T>, b: seq<T>, less: (T, T) -> bool)
    requires StrictTotalOrder(less)
    requires SortedBy(a, less) && SortedBy(b, less)
    requires multiset(a) == multiset(b) && |a| > 0
    ensures |b| > 0 && a[0] == b[0]
  {
    assert a[0] in multiset(b);
    SortedHeadLeast(b, a[0], less);
    SortedHeadLeast(a, b[0], less);
  }

  /** Sequences with equal heads and equal tails are equal. */
  lemma SameHeadAndTail<T>(a: seq<T>, b: seq<T>)
    requires |a| > 0 && |b| > 0 && a[0] == b[0] && a[1..] == b[1..]
    ensures a == b
  {
    assert a == [a[0]] + a[1..] && b == [b[0]] + b[1..];
  }

  /** Dropping the head removes one occurrence of it. */
  lemma TailMultiset<T>(s: seq<T>)
    requires |s| > 0
    ensures multiset(s[1..]) == multiset(s) - multiset{s[0]}
  {
    assert s == [s[0]] + s[1..];
  }

  /** Dropping the head keeps a sequence ordered. */
  lemma SortedTail<T>(s: seq<T>, less: (T, T) -> bool)
    requires |s| > 0 && SortedBy(s, less)
    ensures SortedBy(s[1..], less)
  {
    forall i, j | 0 <= i < j < |s| - 1
      ensures !less(s[1..][j], s[1..][i])
    {
      assert s[1..][j] == s[j + 1] && s[1..][i] == s[i + 1];
    }
  }

  /** No later element is larger: the order `sorted(..., reverse=True)` produces. */
  ghost predicate NonIncreasing<T>(s: seq<T>, less: (T, T) -> bool) {
    forall i, j :: 0 <= i < j < |s| ==> !less(s[i], s[j])
  }

  /** Python's `sorted(s, reverse=True)`: non-increasing. For a total order the
      stable descending sort and the reversed ascending sort coincide. */
  function SortDescending<T(!new)>(s: seq<T>, less: (T, T) -> bool): (r: seq<T>)
    requires StrictTotalOrder(less)
    ensures |r| == |s|
    ensures multiset(r) == multiset(s)
    ensures NonIncreasing(r, less)
  {
    var up := Sort(s, less);
    assert |up| == |s| by {
      assert |multiset(up)| == |multiset(s)|;
    }
    Reverse(up)
  }

  function Reverse<T>(s: seq<T>): (r: seq<T>)
    ensures |r| == |s|
    ensures forall k :: 0 <= k < |s| ==> r[k] == s[|s| - 1 - k]
    ensures multiset(r) == multiset(s)
  {
    var r := seq(|s|, k requires 0 <= k < |s| => s[|s| - 1 - k]);
    ReverseMultiset(s, r);
    r
  }

  lemma {:induction false} ReverseMultiset<T>(s: seq<T>, r: seq<T>)
    requires |r| == |s|
    requires forall k :: 0 <= k < |s| ==> r[k] == s[|s| - 1 - k]
    ensures multiset(r) == multiset(s)
    decreases |s|
  {
    if |s| > 0 {
      var s' := s[1..];
      var r' := r[..|r| - 1];
      ReverseMultiset(s', r');
      assert s == [s[0]] + s';
      assert r == r' + [r[|r| - 1]];
    }
  }
}

=== FILE: search.dfy ===
/** What every search loop of `search.py` returns, and the bookkeeping facts
    the loops share: the frontier's tuples are well-formed paths, and every
    edge leaving an expanded node leads to an expanded node or to a node still
    waiting in the frontier. */
module Search {
  import opened Wrappers
  import opened Ordering
  import opened Graph
  import opened Frontier

  /** `(goal, count, path)`: the goal node reached (or `None`), the number of
      tuples popped, and the path to the goal (or `[]`). */
  datatype SearchResult = SearchResult(goal: Option<NodeId>, count: nat, path: seq<NodeId>)

  /** Ways a search ends without a `SearchResult`: `goal[0]` on an empty goal
      list raises `IndexError`; `FuelExhausted` is the model's step bound on A*. */
  datatype SearchError = NoGoals | FuelExhausted

  ghost predicate FrontierOk(g: Graph, start: NodeId, frontier: seq<Entry>) {
    forall i :: 0 <= i < |frontier| ==> EntryOk(g, start, frontier[i])
  }

  ghost predicate InFrontier(frontier: seq<Entry>, n: NodeId) {
    exists i :: 0 <= i < |frontier| && frontier[i].node == n
  }

  /** Every edge leaving a member of `expanded` ends in `expanded` or at a node
      some frontier tuple will still bring back. */
  ghost predicate Covered(g: Graph, expanded: set<NodeId>, frontier: seq<Entry>) {
    forall v, e :: v in expanded && e in Neighbors(g, v) ==> e.dst in expanded || InFrontier(frontier, e.dst)
  }

  /** The initial frontier `[(start, [start])]` and its priority variants. */
  function Seed(p: Priority, start: NodeId): seq<Entry> {
    [Entry(p, start, [start])]
  }

  lemma SeedOk(g: Graph, p: Priority, start: NodeId)
    ensures FrontierOk(g, start, Seed(p, start))
  {
  }

  /** One loop iteration keeps `Covered`: the tuple at `k` was popped, its node
      now counts as expanded, the other tuples survive in `after`, and when
      the node is expanded for the first time its neighbors outside `expanded'`
      were pushed. */
  lemma CoveredAfterPop(g: Graph, expanded: set<NodeId>, before: seq<Entry>, k: nat, expanded': set<NodeId>, after: seq<Entry>)
    requires k < |before|
    requires Covered(g, expanded, before)
    requires expanded' == expanded + {before[k].node}
    requires forall i :: 0 <= i < |before| && i != k ==> InFrontier(after, before[i].node)
    requires before[k].node !in expanded ==>
               forall e :: e in Neighbors(g, before[k].node) && e.dst !in expanded' ==> InFrontier(after, e.dst)
    ensures Covered(g, expanded', after)
  {
    forall v, e | v in expanded' && e in Neighbors(g, v)
      ensures e.dst in expanded' || InFrontier(after, e.dst)
    {
      if v in expanded {
        if e.dst !in expanded {
          var i :| 0 <= i < |before| && before[i].node == e.dst;
        }
      }
    }
  }

  /** When the frontier is empty, the expanded nodes are closed under the
      edges; if they include `start` and no goal, no path from `start` reaches
      a goal. */
  lemma ExhaustedMeansUnreachable(g: Graph, start: NodeId, expanded: set<NodeId>, isGoal: NodeId -> bool)
    requires Covered(g, expanded, [])
    requires start in expanded
    requires forall v :: v in expanded ==> !isGoal(v)
    ensures forall p :: IsPathFrom(g, start, p) ==> !isGoal(Last(p))
  {
    assert ClosedUnder(g, expanded);
    forall p | IsPathFrom(g, start, p)
      ensures !isGoal(Last(p))
    {
      ClosedContainsPaths(g, expanded, start, p);
    }
  }

  /** `sorted(edges.get(node, []))`: the adjacency list in ascending tuple order. */
  function AscendingEdges(g: Graph, n: NodeId): (r: seq<Edge>)
    ensures multiset(r) == multiset(Neighbors(g, n))
    ensures SortedBy(r, EdgeLess)
  {
    EdgeLessStrictTotal();
    Sort(Neighbors(g, n), EdgeLess)
  }

  /** `sorted(edges.get(node, []), reverse=True)`: the adjacency list in
      descending tuple order. */
  function DescendingEdges(g: Graph, n: NodeId): (r: seq<Edge>)
    ensures multiset(r) == multiset(Neighbors(g, n))
    ensures NonIncreasing(r, EdgeLess)
  {
    EdgeLessStrictTotal();
    SortDescending(Neighbors(g, n), EdgeLess)
  }

  /** The `(neighbor, cost)` list `sorted` hands to the loop has the same pairs. */
  lemma SortedNeighbors(g: Graph, n: NodeId, nbrs: seq<Edge>)
    requires multiset(nbrs) == multiset(Neighbors(g, n))
    ensures |nbrs| == |Neighbors(g, n)|
    ensures forall e :: e in nbrs <==> e in Neighbors(g, n)
  {
    assert |multiset(nbrs)| == |multiset(Neighbors(g, n))|;
    forall e
      ensures e in nbrs <==> e in Neighbors(g, n)
    {
      assert e in nbrs <==> e in multiset(nbrs);
      assert e in Neighbors(g, n) <==> e in multiset(Neighbors(g, n));
    }
  }

  /** Pushed tuples name targets of edges, so the loop stays inside the finite
      set of node ids the graph mentions. */
  lemma SuccessorsInUniverse(g: Graph, x: Entry, nbrs: seq<Edge>, visited: set<NodeId>, key: Edge -> Priority, universe: set<NodeId>)
    requires Targets(g) <= universe
    requires forall e :: e in nbrs ==> e in Neighbors(g, x.node)
    ensures forall i :: 0 <= i < |Successors(x.path, nbrs, visited, key)| ==>
              Successors(x.path, nbrs, visited, key)[i].node in universe
  {
    var u := Unvisited(nbrs, visited);
    forall i | 0 <= i < |u|
      ensures u[i].dst in universe
    {
      assert u[i] in u;
      NeighborInTargets(g, x.node, u[i]);
    }
  }

  /** Every unvisited neighbor of the expanded node is in the extended frontier. */
  lemma PushedCover(g: Graph, x: Entry, nbrs: seq<Edge>, visited: set<NodeId>, key: Edge -> Priority, kept: seq<Entry>)
    requires forall e :: e in Neighbors(g, x.node) ==> e in nbrs
    ensures forall e :: e in Neighbors(g, x.node) && e.dst !in visited ==>
              InFrontier(kept + Successors(x.path, nbrs, visited, key), e.dst)
  {
    var pushed := Successors(x.path, nbrs, visited, key);
    forall e | e in Neighbors(g, x.node) && e.dst !in visited
      ensures InFrontier(kept + pushed, e.dst)
    {
      SuccessorFor(x.path, nbrs, visited, key, e);
      var i :| 0 <= i < |pushed| && pushed[i] == Entry(key(e), e.dst, x.path + [e.dst]);
      assert (kept + pushed)[|kept| + i] == pushed[i];
    }
  }

  /** Every node a search can touch: the start and the targets of edges. */
  ghost function Universe(g: Graph, start: NodeId): set<NodeId> {
    Targets(g) + {start}
  }

  /** What holds at the top of every iteration of `dfs`, `bfs` and `gbfs`:
      tuples are paths from `start`; expanded nodes are no goals and their
      edges are covered; before the first pop the frontier is the seed; and
      every tuple ever pushed came from an edge of an expanded node, so pops
      plus waiting tuples are bounded by the expanded nodes' degrees. */
  ghost predicate SearchInv(g: Graph, start: NodeId, isGoal: NodeId -> bool, visited: set<NodeId>, frontier: seq<Entry>, count: nat) {
    && FrontierOk(g, start, frontier)
    && (forall i :: 0 <= i < |frontier| ==> frontier[i].node in Universe(g, start))
    && visited <= Universe(g, start)
    && (forall v :: v in visited ==> !isGoal(v))
    && Covered(g, visited, frontier)
    && (start in visited || (count == 0 && visited == {} && |frontier| == 1 && frontier[0].node == start && frontier[0].path == [start]))
    && (visited == {} || count >= 1)
    && (isGoal(start) ==> count == 0)
    && count + |frontier| <= 1 + DegreeSum(g, visited)
  }

  lemma SeedInv(g: Graph, start: NodeId, isGoal: NodeId -> bool, p: Priority)
    ensures SearchInv(g, start, isGoal, {}, Seed(p, start), 0)
  {
    assert DegreeSum(g, {}) == 0;
  }

  /** Popping the tuple at `k`, whose node is neither a goal nor visited,
      marking the node visited and appending its successors keeps the
      invariant and leaves fewer nodes to visit. */
  lemma StepExpand(g: Graph, start: NodeId, isGoal: NodeId -> bool, visited: set<NodeId>, before: seq<Entry>, count: nat,
                   k: nat, nbrs: seq<Edge>, key: Edge -> Priority)
    requires SearchInv(g, start, isGoal, visited, before, count)
    requires k < |before| && !isGoal(before[k].node) && before[k].node !in visited
    requires multiset(nbrs) == multiset(Neighbors(g, before[k].node))
    ensures SearchInv(g, start, isGoal, visited + {before[k].node},
                      RemoveAt(before, k) + Successors(before[k].path, nbrs, visited + {before[k].node}, key), count + 1)
    ensures |Universe(g, start) - (visited + {before[k].node})| < |Universe(g, start) - visited|
  {
    var x := before[k];
    var visited' := visited + {x.node};
    var rest := RemoveAt(before, k);
    var pushed := Successors(x.path, nbrs, visited', key);
    var after := rest + pushed;
    SortedNeighbors(g, x.node, nbrs);
    SuccessorsOk(g, start, x, nbrs, visited', key);
    SuccessorsInUniverse(g, x, nbrs, visited', key, Universe(g, start));
    PushedCover(g, x, nbrs, visited', key, rest);
    AppendKeepsEntries(g, start, before, k, pushed);
    RemoveKeepsOthers(before, k, pushed);
    CoveredAfterPop(g, visited, before, k, visited', after);
    DegreeSumRemove(g, visited', x.node);
    assert visited' - {x.node} == visited;
    assert Universe(g, start) - visited' < Universe(g, start) - visited by {
      assert x.node in Universe(g, start) - visited;
    }
  }

  /** Removing one tuple and appending well-formed tuples keeps the frontier
      well-formed and inside the universe. */
  lemma AppendKeepsEntries(g: Graph, start: NodeId, before: seq<Entry>, k: nat, pushed: seq<Entry>)
    requires k < |before|
    requires FrontierOk(g, start, before) && FrontierOk(g, start, pushed)
    requires forall i :: 0 <= i < |before| ==> before[i].node in Universe(g, start)
    requires forall i :: 0 <= i < |pushed| ==> pushed[i].node in Universe(g, start)
    ensures FrontierOk(g, start, RemoveAt(before, k) + pushed)
    ensures forall i :: 0 <= i < |RemoveAt(before, k) + pushed| ==> (RemoveAt(before, k) + pushed)[i].node in Universe(g, start)
  {
    var rest := RemoveAt(before, k);
    var after := rest + pushed;
    forall i | 0 <= i < |after|
      ensures EntryOk(g, start, after[i]) && after[i].node in Universe(g, start)
    {
      if i >= |rest| {
        assert after[i] == pushed[i - |rest|];
      } else if i >= k {
        assert after[i] == before[i + 1];
      } else {
        assert after[i] == before[i];
      }
    }
  }

  /** The tuples other than the one at `k` survive the pop. */
  lemma RemoveKeepsOthers(before: seq<Entry>, k: nat, pushed: seq<Entry>)
    requires k < |before|
    ensures forall i :: 0 <= i < |before| && i != k ==> InFrontier(RemoveAt(before, k) + pushed, before[i].node)
  {
    var after := RemoveAt(before, k) + pushed;
    forall i | 0 <= i < |before| && i != k
      ensures InFrontier(after, before[i].node)
    {
      if i < k {
        assert after[i] == before[i];
      } else {
        assert after[i - 1] == before[i];
      }
    }
  }

  /** Popping the tuple at `k` whose node is already visited (and no goal)
      only drops the tuple. */
  lemma StepSkip(g: Graph, start: NodeId, isGoal: NodeId -> bool, visited: set<NodeId>, before: seq<Entry>, count: nat, k: nat)
    requires SearchInv(g, start, isGoal, visited, before, count)
    requires k < |before| && !isGoal(before[k].node) && before[k].node in visited
    ensures SearchInv(g, start, isGoal, visited, RemoveAt(before, k), count + 1)
  {
    var after := RemoveAt(before, k);
    RemoveKeepsOthers(before, k, []);
    assert after + [] == after;
    AppendKeepsEntries(g, start, before, k, []);
    assert visited + {before[k].node} == visited;
    CoveredAfterPop(g, visited, before, k, visited, after);
  }

  /** The facts a search returns with when it pops a goal. */
  lemma FoundResult(g: Graph, start: NodeId, isGoal: NodeId -> bool, visited: set<NodeId>, frontier: seq<Entry>, count: nat, k: nat)
    requires SearchInv(g, start, isGoal, visited, frontier, count)
    requires k < |frontier|
    ensures count + 1 <= 1 + TotalEdges(g)
    ensures IsPathFrom(g, start, frontier[k].path) && Last(frontier[k].path) == frontier[k].node
    ensures isGoal(start) ==> frontier[k] == frontier[0] && frontier[k].node == start && frontier[k].path == [start]
  {
    DegreeSumAtMostTotal(g, visited);
  }

  /** The facts a search returns with when its frontier runs empty. */
  lemma ExhaustedResult(g: Graph, start: NodeId, isGoal: NodeId -> bool, visited: set<NodeId>, count: nat)
    requires SearchInv(g, start, isGoal, visited, [], count)
    ensures 1 <= count <= 1 + TotalEdges(g)
    ensures !isGoal(start)
    ensures forall p :: IsPathFrom(g, start, p) ==> !isGoal(Last(p))
  {
    DegreeSumAtMostTotal(g, visited);
    ExhaustedMeansUnreachable(g, start, visited, isGoal);
  }
}

=== FILE: search_tree.dfy ===
/** `create_search_tree_from_visited_order`: the `(node, parent)` trace of a
    search becomes a tree of child links. The first pass creates a node per
    traced id and takes the last parentless pair as the root; the second pass
    creates any missing parent and links each child as the parent's left
    child when it is smaller and as its right child otherwise, keeping the
    first child of each side. Nodes are shared by id, so the links are a map
    from id to the ids of its two children. */
module SearchTree {
  import opened Wrappers
  import opened Ordering
  import opened Bst

  /** One `(node, parent)` pair of the trace; the start's parent is `None`. */
  type Step = (string, Option<string>)

  /** The `left` and `right` children of one tree node, by id. */
  datatype Links = Links(left: Option<string>, right: Option<string>)

  const NoLinks := Links(None, None)

  /** The returned tree: its root, the links of every node created, and the
      visit numbers `set_visit_order` assigns. */
  datatype SearchTree = SearchTree(root: Option<string>, links: map<string, Links>, visitOrder: map<string, nat>)

  function TracedNodes(trace: seq<Step>): set<string> {
    set i | 0 <= i < |trace| :: trace[i].0
  }

  function Parents(trace: seq<Step>): set<string> {
    set i | 0 <= i < |trace| && trace[i].1.Some? :: trace[i].1.value
  }

  /** The first pass's `root`: reassigned at every parentless pair, so the
      last such pair wins. */
  function RootOf(trace: seq<Step>): (r: Option<string>)
    ensures r.None? <==> forall i :: 0 <= i < |trace| ==> trace[i].1.Some?
    ensures r.Some? ==> exists i :: 0 <= i < |trace| && trace[i] == (r.value, None) && LastParentless(trace, i)
    decreases |trace|
  {
    if |trace| == 0 then None
    else
      var front := trace[..|trace| - 1];
      assert forall i :: 0 <= i < |front| ==> front[i] == trace[i];
      if trace[|trace| - 1].1.None? then Some(trace[|trace| - 1].0)
      else RootOf(front)
  }

  /** No pair after position `i` lacks a parent. */
  predicate LastParentless(trace: seq<Step>, i: nat) {
    forall j :: i < j < |trace| ==> trace[j].1.Some?
  }

  /** `step` would be linked below `p` on the given side. */
  predicate IsChild(step: Step, p: string, left: bool) {
    step.1 == Some(p) && StrLess(step.0, p) == left
  }

  /** The first child of `p` on the given side in trace order: the link the
      second pass keeps. */
  function FirstChild(trace: seq<Step>, p: string, left: bool): (r: Option<string>)
    ensures r.None? <==> forall i :: 0 <= i < |trace| ==> !IsChild(trace[i], p, left)
    ensures r.Some? ==> exists i :: 0 <= i < |trace| && FirstChildAt(trace, p, left, i) && trace[i].0 == r.value
    decreases |trace|
  {
    if |trace| == 0 then None
    else if IsChild(trace[0], p, left) then
      assert FirstChildAt(trace, p, left, 0);
      Some(trace[0].0)
    else
      var r := FirstChild(trace[1..], p, left);
      assert forall i :: 1 <= i < |trace| ==> trace[i] == trace[1..][i - 1];
      if r.Some? then
        var i :| 0 <= i < |trace[1..]| && FirstChildAt(trace[1..], p, left, i) && trace[1..][i].0 == r.value;
        assert FirstChildAt(trace, p, left, i + 1);
        r
      else r
  }

  /** Position `i` holds a child of `p` on the given side and no earlier one does. */
  predicate FirstChildAt(trace: seq<Step>, p: string, left: bool, i: nat) {
    && i < |trace|
    && IsChild(trace[i], p, left)
    && forall j :: 0 <= j < i ==> !IsChild(trace[j], p, left)
  }

  /** Appending a pair changes the first child only where there was none. */
  lemma {:induction false} FirstChildAppend(trace: seq<Step>, x: Step, p: string, left: bool)
    ensures FirstChild(trace + [x], p, left) ==
              if FirstChild(trace, p, left).Some? then FirstChild(trace, p, left)
              else if IsChild(x, p, left) then Some(x.0)
              else None
    decreases |trace|
  {
    if |trace| > 0 {
      assert (trace + [x])[1..] == trace[1..] + [x];
      FirstChildAppend(trace[1..], x, p, left);
    }
  }

  /** One iteration of the second pass. */
  function Link(links: map<string, Links>, step: Step): (r: map<string, Links>)
    ensures step.1.None? ==> r == links
    ensures step.1.Some? ==> r.Keys == links.Keys + {step.1.value}
    ensures forall q :: q in links && links[q].left.Some? ==> r[q].left == links[q].left
    ensures forall q :: q in links && links[q].right.Some? ==> r[q].right == links[q].right
    ensures forall q :: q in links && step.1 != Some(q) ==> r[q] == links[q]
    ensures step.1.Some? ==>
              var p := step.1.value;
              var before := if p in links then links[p] else NoLinks;
              (StrLess(step.0, p) ==> r[p].right == before.right && (before.left.None? ==> r[p].left == Some(step.0))) &&
              (!StrLess(step.0, p) ==> r[p].left == before.left && (before.right.None? ==> r[p].right == Some(step.0)))
  {
    match step.1
    case None => links
    case Some(p) =>
      var links' := if p in links then links else links[p := NoLinks];
      var cur := links'[p];
      if StrLess(step.0, p) then
        if cur.left.None? then links'[p := cur.(left := Some(step.0))] else links'
      else
        if cur.right.None? then links'[p := cur.(right := Some(step.0))] else links'
  }

  /** The second pass over the whole trace, in order. */
  function LinkAll(links: map<string, Links>, trace: seq<Step>): map<string, Links>
    decreases |trace|
  {
    if |trace| == 0 then links
    else Link(LinkAll(links, trace[..|trace| - 1]), trace[|trace| - 1])
  }

  /** What the second pass builds from nodes without links: every parent gets
      a node, and each node's links are its first smaller and first
      larger-or-equal child. */
  lemma {:induction false} LinkAllFirstChildren(init: map<string, Links>, trace: seq<Step>)
    requires forall q :: q in init ==> init[q] == NoLinks
    ensures LinkAll(init, trace).Keys == init.Keys + Parents(trace)
    ensures forall q :: q in LinkAll(init, trace) ==>
              LinkAll(init, trace)[q] == Links(FirstChild(trace, q, true), FirstChild(trace, q, false))
    decreases |trace|
  {
    if |trace| == 0 {
      assert Parents(trace) == {};
    } else {
      var front, x := trace[..|trace| - 1], trace[|trace| - 1];
      assert trace == front + [x];
      LinkAllFirstChildren(init, front);
      var m := LinkAll(init, front);
      var r := Link(m, x);
      assert r == LinkAll(init, trace);
      ParentsAppend(front, x);
      forall q | q in r
        ensures r[q] == Links(FirstChild(trace, q, true), FirstChild(trace, q, false))
      {
        FirstChildAppend(front, x, q, true);
        FirstChildAppend(front, x, q, false);
        if q !in m {
          NotParent(front, q);
        }
      }
    }
  }

  lemma ParentsAppend(trace: seq<Step>, x: Step)
    ensures Parents(trace + [x]) == Parents(trace) + (if x.1.Some? then {x.1.value} else {})
  {
    var t := trace + [x];
    assert forall i :: 0 <= i < |trace| ==> t[i] == trace[i];
    assert t[|trace|] == x;
  }

  /** A node that is no pair's parent has no children. */
  lemma NotParent(trace: seq<Step>, q: string)
    requires q !in Parents(trace)
    ensures FirstChild(trace, q, true).None? && FirstChild(trace, q, false).None?
  {
    forall i | 0 <= i < |trace|
      ensures trace[i].1 != Some(q)
    {
      if trace[i].1.Some? {
        assert trace[i].1.value in Parents(trace);
      }
    }
  }

  /** `[n for n, _ in visited_order]` */
  function Visits(trace: seq<Step>): (r: seq<string>)
    ensures |r| == |trace|
    ensures forall i :: 0 <= i < |trace| ==> r[i] == trace[i].0
  {
    seq(|trace|, i requires 0 <= i < |trace| => trace[i].0)
  }

  /** `set_visit_order([n for n, _ in visited_order])`: each traced node is
      numbered 1 plus the index of its last pair. */
  function TraceNumbers(trace: seq<Step>): (r: map<string, nat>)
    ensures forall q :: q in r <==> q in TracedNodes(trace)
    ensures forall q :: q in r ==>
              && 1 <= r[q] <= |trace| && trace[r[q] - 1].0 == q
              && forall j :: r[q] <= j < |trace| ==> trace[j].0 != q
  {
    var visits := Visits(trace);
    forall q | q in TracedNodes(trace)
      ensures q in visits
    {
      var i :| 0 <= i < |trace| && trace[i].0 == q;
      assert visits[i] == q;
    }
    LastVisit(trace);
    VisitNumbers(visits)
  }

  lemma LastVisit(trace: seq<Step>)
    ensures forall q :: q in VisitNumbers(Visits(trace)) ==>
              && 1 <= VisitNumbers(Visits(trace))[q] <= |trace|
              && trace[VisitNumbers(Visits(trace))[q] - 1].0 == q
              && forall j :: VisitNumbers(Visits(trace))[q] <= j < |trace| ==> trace[j].0 != q
  {
    var visits := Visits(trace);
    var r := VisitNumbers(visits);
    forall q | q in r
      ensures trace[r[q] - 1].0 == q
      ensures forall j :: r[q] <= j < |trace| ==> trace[j].0 != q
    {
      assert visits[r[q] - 1] == q;
      forall j | r[q] <= j < |trace|
        ensures trace[j].0 != q
      {
        assert visits[j] != q;
      }
    }
  }

  /** `create_search_tree_from_visited_order`: `None` for an empty trace;
      otherwise the root of the first pass, a node for every traced id and
      every parent, each node's first smaller and first larger-or-equal
      child as its links, and the visit numbers. */
  function CreateSearchTree(trace: seq<Step>): (r: Option<SearchTree>)
    ensures r.None? <==> |trace| == 0
    ensures r.Some? ==> r.value.root == RootOf(trace)
    ensures r.Some? ==> r.value.links.Keys == TracedNodes(trace) + Parents(trace)
    ensures r.Some? ==> forall q :: q in r.value.links ==>
              r.value.links[q] == Links(FirstChild(trace, q, true), FirstChild(trace, q, false))
    ensures r.Some? ==> r.value.visitOrder == TraceNumbers(trace)
  {
    if |trace| == 0 then None
    else
      var init := map q | q in TracedNodes(trace) :: NoLinks;
      LinkAllFirstChildren(init, trace);
      Some(SearchTree(RootOf(trace), LinkAll(init, trace), TraceNumbers(trace)))
  }
}

=== FILE: text.dfy ===
/** The Python `str` operations the program uses: `strip()`, `strip(chars)`,
    `startswith`, `split(sep)` with a one-character separator, and the
    substring test `a in b`. */
module Text {

  /** Python's `str.isspace()` for one character: the characters `strip()`
      removes when called without arguments. */
  predicate IsSpace(c: char) {
    || ('\t' <= c <= '\r')
    || ('\U{1C}' <= c <= ' ')
    || c == '\U{85}' || c == '\U{A0}' || c == '\U{1680}'
    || ('\U{2000}' <= c <= '\U{200A}')
    || c == '\U{2028}' || c == '\U{2029}' || c == '\U{202F}' || c == '\U{205F}' || c == '\U{3000}'
  }

  /** The first position at or after `i` whose character is kept. */
  function StripStart(s: string, drop: char -> bool, i: nat): (a: nat)
    requires i <= |s|
    ensures i <= a <= |s|
    ensures forall k :: i <= k < a ==> drop(s[k])
    ensures a < |s| ==> !drop(s[a])
    decreases |s| - i
  {
    if i < |s| && drop(s[i]) then StripStart(s, drop, i + 1) else i
  }

  /** The end of the kept part of `s[lo..e]`: one past the last kept
      character, or `lo` if there is none. */
  function StripEnd(s: string, drop: char -> bool, lo: nat, e: nat): (b: nat)
    requires lo <= e <= |s|
    ensures lo <= b <= e
    ensures forall k :: b <= k < e ==> drop(s[k])
    ensures b > lo ==> !drop(s[b - 1])
    decreases e
  {
    if e > lo && drop(s[e - 1]) then StripEnd(s, drop, lo, e - 1) else e
  }

  /** `r` occurs in `s` starting at position `i`. */
  predicate OccursAt(r: string, s: string, i: int) {
    0 <= i && i + |r| <= |s| && s[i..i + |r|] == r
  }

  /** Removes the longest prefix and suffix made of characters satisfying `drop`. */
  function StripBy(s: string, drop: char -> bool): (r: string)
    ensures exists i :: OccursAt(r, s, i)
              && (forall k :: 0 <= k < i ==> drop(s[k]))
              && (forall k :: i + |r| <= k < |s| ==> drop(s[k]))
    ensures |r| > 0 ==> !drop(r[0]) && !drop(r[|r| - 1])
  {
    var a := StripStart(s, drop, 0);
    var b := StripEnd(s, drop, a, |s|);
    assert OccursAt(s[a..b], s, a);
    s[a..b]
  }

  /** `s.strip()` */
  function Strip(s: string): string {
    StripBy(s, IsSpace)
  }

  /** Membership in `chars`, as a character predicate. */
  function CharIn(chars: set<char>): char -> bool {
    (c: char) => c in chars
  }

  /** `s.strip(chars)` */
  function StripChars(s: string, chars: set<char>): string {
    StripBy(s, CharIn(chars))
  }

  /** The scan from `i` stops at the first kept character. */
  lemma {:induction false} StartAt(s: string, drop: char -> bool, i: nat, a: nat)
    requires i <= a <= |s|
    requires forall k :: i <= k < a ==> drop(s[k])
    requires a < |s| ==> !drop(s[a])
    ensures StripStart(s, drop, i) == a
    decreases a - i
  {
    if i < a {
      StartAt(s, drop, i + 1, a);
    }
  }

  /** The scan back from `e` stops after the last kept character. */
  lemma {:induction false} EndAt(s: string, drop: char -> bool, lo: nat, e: nat, b: nat)
    requires lo <= b <= e <= |s|
    requires forall k :: b <= k < e ==> drop(s[k])
    requires b > lo ==> !drop(s[b - 1])
    ensures StripEnd(s, drop, lo, e) == b
    decreases e - b
  {
    if b < e {
      EndAt(s, drop, lo, e - 1, b);
    }
  }

  /** Stripping a string framed by droppable characters yields the frame's
      contents, provided these neither start nor end with a droppable character. */
  lemma StripFramed(p: string, x: string, q: string, drop: char -> bool)
    requires forall k :: 0 <= k < |p| ==> drop(p[k])
    requires forall k :: 0 <= k < |q| ==> drop(q[k])
    requires |x| > 0 ==> !drop(x[0]) && !drop(x[|x| - 1])
    ensures StripBy(p + x + q, drop) == x
  {
    var s := p + x + q;
    var n := |p| + |x|;
    forall k | 0 <= k < |p|
      ensures drop(s[k])
    {
      assert s[k] == p[k];
    }
    forall k | n <= k < |s|
      ensures drop(s[k])
    {
      assert s[k] == q[k - n];
    }
    if |x| == 0 {
      StartAt(s, drop, 0, |s|);
      EndAt(s, drop, |s|, |s|, |s|);
    } else {
      assert s[|p|] == x[0] && s[n - 1] == x[|x| - 1];
      StartAt(s, drop, 0, |p|);
      EndAt(s, drop, |p|, |s|, n);
      assert s[|p|..n] == x;
    }
  }

  /** Stripping twice removes nothing more. */
  lemma StripIdempotent(s: string, drop: char -> bool)
    ensures StripBy(StripBy(s, drop), drop) == StripBy(s, drop)
  {
    var r := StripBy(s, drop);
    assert r == [] + r + [];
    StripFramed([], r, [], drop);
  }

  /** `s.startswith(prefix)` */
  predicate StartsWith(s: string, prefix: string) {
    |prefix| <= |s| && s[..|prefix|] == prefix
  }

  /** `sep.join(pieces)` */
  function Join(pieces: seq<string>, sep: char): string
    requires |pieces| >= 1
    decreases |pieces|
  {
    if |pieces| == 1 then pieces[0] else pieces[0] + [sep] + Join(pieces[1..], sep)
  }

  /** `s.split(sep)`: the maximal separator-free pieces between occurrences of
      `sep`; one more piece than there are separators. */
  function Split(s: string, sep: char): (r: seq<string>)
    ensures |r| >= 1
    ensures forall i :: 0 <= i < |r| ==> sep !in r[i]
    ensures Join(r, sep) == s
    decreases |s|
  {
    if |s| == 0 then [""]
    else
      var rest := Split(s[1..], sep);
      assert s == [s[0]] + s[1..];
      if s[0] == sep then
        assert Join([""] + rest, sep) == [sep] + Join(rest, sep) by {
          assert ([""] + rest)[1..] == rest;
        }
        [""] + rest
      else
        var r := [[s[0]] + rest[0]] + rest[1..];
        assert Join(r, sep) == [s[0]] + Join(rest, sep) by {
          if |rest| > 1 {
            assert r[1..] == rest[1..];
            assert Join(rest, sep) == rest[0] + [sep] + Join(rest[1..], sep);
          }
        }
        r
  }

  lemma {:induction false} SplitNoSeparator(s: string, sep: char)
    requires sep !in s
    ensures Split(s, sep) == [s]
    decreases |s|
  {
    if |s| > 0 {
      assert sep !in s[1..] by {
        assert forall k :: 0 <= k < |s[1..]| ==> s[1..][k] == s[k + 1];
      }
      SplitNoSeparator(s[1..], sep);
      assert s == [s[0]] + s[1..];
    }
  }

  /** Splitting distributes over a separator occurrence. */
  lemma {:induction false} SplitAtSeparator(x: string, y: string, sep: char)
    ensures Split(x + [sep] + y, sep) == Split(x, sep) + Split(y, sep)
    decreases |x|
  {
    var s := x + [sep] + y;
    if |x| == 0 {
      assert s == [sep] + y;
      assert s[1..] == y;
    } else {
      assert s[1..] == x[1..] + [sep] + y;
      SplitAtSeparator(x[1..], y, sep);
    }
  }

  /** Splitting undoes joining separator-free pieces. */
  lemma {:induction false} SplitJoin(pieces: seq<string>, sep: char)
    requires |pieces| >= 1
    requires forall i :: 0 <= i < |pieces| ==> sep !in pieces[i]
    ensures Split(Join(pieces, sep), sep) == pieces
    decreases |pieces|
  {
    SplitNoSeparator(pieces[0], sep);
    if |pieces| > 1 {
      SplitJoin(pieces[1..], sep);
      SplitAtSeparator(pieces[0], Join(pieces[1..], sep), sep);
      assert pieces == [pieces[0]] + pieces[1..];
    }
  }

  /** Every character of a joined string is the separator or a character of
      some piece. */
  lemma {:induction false} JoinChars(pieces: seq<string>, sep: char, c: char)
    requires |pieces| >= 1
    requires c in Join(pieces, sep)
    ensures c == sep || exists i :: 0 <= i < |pieces| && c in pieces[i]
    decreases |pieces|
  {
    if |pieces| > 1 {
      var rest := Join(pieces[1..], sep);
      assert Join(pieces, sep) == pieces[0] + [sep] + rest;
      if c in rest {
        JoinChars(pieces[1..], sep, c);
        if c != sep {
          var i :| 0 <= i < |pieces[1..]| && c in pieces[1..][i];
          assert c in pieces[i + 1];
        }
      }
    }
  }

  /** A joined string starts with the first piece's first character and ends
      with the last piece's last character. */
  lemma JoinEnds(pieces: seq<string>, sep: char)
    requires |pieces| >= 1 && |pieces[0]| > 0 && |pieces[|pieces| - 1]| > 0
    ensures var j := Join(pieces, sep);
            |j| > 0 && j[0] == pieces[0][0] && j[|j| - 1] == pieces[|pieces| - 1][|pieces[|pieces| - 1]| - 1]
  {
    JoinEndsLast(pieces, sep);
  }

  /** A joined string ends with the last piece's last character. */
  lemma {:induction false} JoinEndsLast(pieces: seq<string>, sep: char)
    requires |pieces| >= 1 && |pieces[|pieces| - 1]| > 0
    ensures var j := Join(pieces, sep);
            |j| > 0 && j[|j| - 1] == pieces[|pieces| - 1][|pieces[|pieces| - 1]| - 1]
    decreases |pieces|
  {
    if |pieces| > 1 {
      var rest := pieces[1..];
      assert rest[|rest| - 1] == pieces[|pieces| - 1];
      JoinEndsLast(rest, sep);
    }
  }

  /** Python's `a in b` on two strings: `a` occurs contiguously in `b`. */
  function IsSubstring(a: string, b: string): (r: bool)
    ensures r <==> exists i :: OccursAt(a, b, i)
    decreases |b|
  {
    if StartsWith(b, a) then
      assert OccursAt(a, b, 0);
      true
    else if |b| == 0 then
      false
    else
      var r := IsSubstring(a, b[1..]);
      assert r ==> exists i :: OccursAt(a, b, i) by {
        if r {
          var i :| OccursAt(a, b[1..], i);
          assert b[1..][i..i + |a|] == b[i + 1..i + 1 + |a|];
          assert OccursAt(a, b, i + 1);
        }
      }
      assert (exists i :: OccursAt(a, b, i)) ==> r by {
        if exists i :: OccursAt(a, b, i) {
          var i :| OccursAt(a, b, i);
          assert i != 0;
          assert b[1..][i - 1..i - 1 + |a|] == b[i..i + |a|];
          assert OccursAt(a, b[1..], i - 1);
        }
      }
      r
  }
}

=== FILE: uninformed.dfy ===
/** The uninformed searches of `search.py`: `dfs` (a stack, neighbors pushed
    in descending id order so the smallest is popped first), `bfs` (a FIFO
    queue, neighbors appended in ascending id order) and `custom_uninformed`,
    which is `dfs`. */
module Uninformed {
  import opened Wrappers
  import opened Ordering
  import opened Graph
  import opened Frontier
  import opened Search
  import opened Levels

  /** `dfs`: pop the most recently pushed `(node, path)`; count it; stop at a
      goal; otherwise, on the node's first expansion, mark it visited and push
      its unvisited neighbors in descending order. */
  method Dfs(g: Graph, start: NodeId, goals: seq<NodeId>) returns (r: SearchResult)
    ensures 1 <= r.count <= 1 + TotalEdges(g)
    ensures r.goal.Some? ==> r.goal.value in goals && IsPathFrom(g, start, r.path) && Last(r.path) == r.goal.value
    ensures r.goal.None? ==> r.path == [] && forall p :: IsPathFrom(g, start, p) ==> Last(p) !in goals
    ensures start in goals ==> r == SearchResult(Some(start), 1, [start])
  {
    ghost var isGoal := (n: NodeId) => n in goals;
    var stack := Seed(Unordered, start);
    var visited: set<NodeId> := {};
    var count := 0;
    SeedInv(g, start, isGoal, Unordered);
    while |stack| > 0
      invariant SearchInv(g, start, isGoal, visited, stack, count)
      decreases |Universe(g, start) - visited|, |stack|
    {
      var k := |stack| - 1;
      var top := stack[k];
      var rest := stack[..k];
      assert rest == RemoveAt(stack, k);
      if top.node in goals {
        FoundResult(g, start, isGoal, visited, stack, count, k);
        return SearchResult(Some(top.node), count + 1, top.path);
      }
      if top.node !in visited {
        var nbrs := DescendingEdges(g, top.node);
        var pushed := Successors(top.path, nbrs, visited + {top.node}, NoKey);
        StepExpand(g, start, isGoal, visited, stack, count, k, nbrs, NoKey);
        visited, stack := visited + {top.node}, rest + pushed;
      } else {
        StepSkip(g, start, isGoal, visited, stack, count, k);
        stack := rest;
      }
      count := count + 1;
    }
    ExhaustedResult(g, start, isGoal, visited, count);
    return SearchResult(None, count, []);
  }

  /** `bfs`: pop the oldest `(node, path)`; count it; stop at a goal;
      otherwise, on the node's first expansion, mark it visited and append its
      unvisited neighbors in ascending order. The path it returns is a
      shortest path from `start` to any goal. */
  method Bfs(g: Graph, start: NodeId, goals: seq<NodeId>) returns (r: SearchResult)
    ensures 1 <= r.count <= 1 + TotalEdges(g)
    ensures r.goal.Some? ==> r.goal.value in goals && IsPathFrom(g, start, r.path) && Last(r.path) == r.goal.value
    ensures r.goal.Some? ==> forall p :: IsPathFrom(g, start, p) && Last(p) in goals ==> |r.path| <= |p|
    ensures r.goal.None? ==> r.path == [] && forall p :: IsPathFrom(g, start, p) ==> Last(p) !in goals
    ensures start in goals ==> r == SearchResult(Some(start), 1, [start])
  {
    ghost var isGoal := (n: NodeId) => n in goals;
    var queue := Seed(Unordered, start);
    var visited: set<NodeId> := {};
    ghost var depth: map<NodeId, nat> := map[];
    var count := 0;
    SeedInv(g, start, isGoal, Unordered);
    while |queue| > 0
      invariant SearchInv(g, start, isGoal, visited, queue, count)
      invariant BfsInv(g, start, visited, depth, queue)
      decreases |Universe(g, start) - visited|, |queue|
    {
      var head := queue[0];
      if head.node in goals {
        BfsFound(g, start, goals, isGoal, visited, depth, queue, count);
        return SearchResult(Some(head.node), count + 1, head.path);
      }
      if head.node !in visited {
        var nbrs := AscendingEdges(g, head.node);
        var pushed := Successors(head.path, nbrs, visited + {head.node}, NoKey);
        BfsExpand(g, start, isGoal, visited, depth, queue, count, nbrs);
        visited, depth, queue := visited + {head.node}, depth[head.node := |head.path|], queue[1..] + pushed;
      } else {
        BfsSkip(g, start, isGoal, visited, depth, queue, count);
        queue := queue[1..];
      }
      count := count + 1;
    }
    ExhaustedResult(g, start, isGoal, visited, count);
    return SearchResult(None, count, []);
  }

  /** `custom_uninformed` runs `dfs`. */
  method CustomUninformed(g: Graph, start: NodeId, goals: seq<NodeId>) returns (r: SearchResult)
    ensures 1 <= r.count <= 1 + TotalEdges(g)
    ensures r.goal.Some? ==> r.goal.value in goals && IsPathFrom(g, start, r.path) && Last(r.path) == r.goal.value
    ensures r.goal.None? ==> r.path == [] && forall p :: IsPathFrom(g, start, p) ==> Last(p) !in goals
    ensures start in goals ==> r == SearchResult(Some(start), 1, [start])
  {
    r := Dfs(g, start, goals);
  }
}

=== FILE: wrappers.dfy ===
/** Failure-compatible wrappers used across the model: `Option` for Python's
    `None`-or-value, `Result` for an operation that may raise. */
module Wrappers {

  datatype Option<+T> = None | Some(value: T)

  datatype Result<+R, +E> = Success(value: R) | Failure(error: E) {

    predicate IsFailure() {
      Failure?
    }

    function PropagateFailure<U>(): Result<U, E>
      requires Failure?
    {
      Failure(error)
    }

    function Extract(): R
      requires Success?
    {
      value
    }
  }
}
